=== FILE: README.md ===
# jsonl-viewer: a verified model of the record transformations

`jv` is a command-line viewer for JSON-lines files, especially agent session
logs. It can also read trajectory documents: a single JSON object holding a
`steps` array. Once the file is decoded, every command is a pure
transformation of the decoded records. This project models those
transformations in Dafny and proves what they guarantee:

- loading: which non-blank lines become records, and which line numbers are
  warned about;
- the post-decoding format decision between line-delimited and trajectory;
- the `type` summary histogram;
- 1-based line selection and filtering by `type`;
- dotted-path field projection;
- `print_json` truncation;
- the three code-change extraction rules, with the per-file tally, the
  3000-character display cut and the saved file names;
- the deep analysis of a session log: session header, outcome, tool-use
  histogram, tool errors and first texts.

Modules:

| file | module | covers |
|---|---|---|
| json.dfy | `JsonValue` | decoded JSON values and `dict.get`-style access |
| text.dfy | `Text` | `str.split`, `str.strip`, `str.lstrip`, `str.replace`, `s[:n]`, decimal and `{:03d}` formatting |
| loader.dfy | `Loader` | `load_jsonl`, `load_trajectory_json`, the decision `smart_load` makes |
| histogram.dfy | `Histogram` | `d[k] = d.get(k, 0) + 1` tallies and the descending-count printing order |
| views.dfy | `Views` | `show_summary`, `show_line`, `show_by_type`, `show_keys`, `print_json` |
| extract.dfy | `Extract` | the scan of `extract_agent_code` |
| report.dfy | `Report` | the file tally, the payload display and the saved file names of `extract_agent_code` |
| analyze.dfy | `Analyze` | `analyze_claude_code`, and the summary's analysis hint |

The functions that model the program, module by module:

- `JsonValue`: `Get`, `GetOr`, `StringOr` and `EntriesOf` are `dict.get` and
  the loops over `dict.get(k, [])`; `Truthy` is Python truthiness; `Filter`
  is a loop whose body runs under an `if`.
- `Text`: `Split`, `Strip`, `LStripChar`, `ReplaceChar`, `PyPrefix`,
  `Decimal` and `Pad3` are the string operations the program calls.
- `Loader`: `LoadJsonl` is `load_jsonl`, `LoadTrajectoryJson` is
  `load_trajectory_json`, and `SmartLoad` is the format decision of
  `smart_load`.
- `Histogram`: `Tally` fills a counting dict, and `SortByCount` is the
  `sorted(..., key=lambda x: -x[1])` that prints it.
- `Views`: `TypeHistogram` is `show_summary`'s tally, `ShowLine` is
  `show_line`, `ShowByType` is `show_by_type`, `Resolve`, `Project`,
  `Extracted` and `ShowKeys` are `show_keys`, and `PrintJsonText` is
  `print_json`'s cut.
- `Extract`: `ExtractAgentCode` is the scan of `extract_agent_code`;
  `RecordChanges` is its loop body for one record, made of `Rule1` (message
  content), `Rule2` (`tool_calls` writes) and `Rule3` (trajectory calls), and
  `ToolChange` builds each change.
- `Report`: `FileStats` is the `file_stats` dict, `Display` the 3000-character
  cut, and `SaveName` the saved file name.
- `Analyze`: `SessionOf`, `OutcomeOf`, `ToolUseCounts`, `Errors` and
  `Thoughts` are the five sections of `analyze_claude_code`, and
  `SuggestsAnalysis` is the summary's analysis hint.

What each of them guarantees is stated by the lemmas in the "## Model" table.

Conventions:

- Records are numbered from 1 in the loaded sequence.
- Python's `None` is JSON `null` (`JNull`). `d.get(k)` without a default
  gives `JNull` both for a missing key and for a key bound to `null`, as in
  Python; `d.get(k, default)` gives the default only for a missing key.
- Where Python would raise on a value of an unexpected shape, the model reads
  the field as absent: a non-object has no fields, and a list field that is
  not an array has no entries. This covers calling `.get` on a non-object and
  iterating a non-list.
- A field the code uses as text (a file path, a written content, the two
  sides of an edit) is read by `StringOr`: a value that is not a string gives
  the text default. Python does something else there, and not the same thing
  everywhere: it keeps the value, renders it with `str` inside the edit
  payload, or raises later, when the value reaches `len`, a dict key or
  `.replace`. The "Left out" lines starting with `Extract.ToolChange`,
  `Report.Display` and `Report.SaveName` name each case.

The model follows the code, also where a plain reading of the tool's
behaviour would suggest otherwise:

- Warnings name the physical line in the file, counting blank lines: the
  loader enumerates raw lines. Records are still numbered by their position
  among the decoded records.
- `smart_load` never calls `load_trajectory_json`. A whole document is only
  tried when the text starts with `{`, and anything other than an object with
  `steps` falls back to line-by-line loading. So a bare top-level array is
  never returned as it stands. `load_trajectory_json` is modelled on its own.
- The trajectory branch returns whatever `steps` holds, not necessarily an
  array.
- Malformed shapes make the program raise instead of reporting a
  user-facing error.

## Model

| member | source | states |
|---|---|---|
| JsonValue.LookupFindsLastBinding | src/jsonl_viewer/cli.py:30 | a key is found iff some member binds it, and the value found is that of its last binding (the decoder's rule for repeated keys) |
| JsonValue.GetOrLastBinding | src/jsonl_viewer/cli.py:166-171 | `v.get(key, default)` is the default exactly when `v` is not an object or no member binds the key; otherwise it is the value of the key's last binding, `null` included |
| JsonValue.EntriesOfBinding | src/jsonl_viewer/cli.py:168 | a loop over `v.get(key, [])` visits entries only when the key's last binding is an array, and then exactly that array's items |
| JsonValue.TruthyIffNotFalsy | src/jsonl_viewer/cli.py:333 | a value is truthy exactly when it is not `None`, `False`, `0`, or an empty string, list or dict |
| JsonValue.FilterKeeps | src/jsonl_viewer/cli.py:168-169 | a loop guarded by a test visits only elements that pass it, each element that passes, and no more elements than there are |
| JsonValue.FilterConcat | src/jsonl_viewer/cli.py:168-169 | the guarded loop keeps entry order and multiplicity: over `a + b` it keeps what it keeps over `a`, then what it keeps over `b`, and a single element exactly when it passes |
| JsonValue.Get | src/jsonl_viewer/cli.py:138-139 | only an object has fields |
| JsonValue.Snippet | src/jsonl_viewer/cli.py:334 | `x[:n]` keeps a prefix of at most `n` characters or items; a value that cannot be sliced reads as the empty default |
| Text.Split | src/jsonl_viewer/cli.py:135 | `k.split('.')` yields at least one part and no part contains the separator |
| Text.JoinSplit | src/jsonl_viewer/cli.py:135 | joining the parts with the separator gives back the key |
| Text.SplitJoin | src/jsonl_viewer/cli.py:135 | splitting a join of separator-free parts gives back the parts |
| Text.Decimal | src/jsonl_viewer/cli.py:252 | the decimal rendering of a count is all digits, without leading zeros |
| Text.DecimalRoundTrip | src/jsonl_viewer/cli.py:252 | the rendered digits read back as the count |
| Text.Pad3 | src/jsonl_viewer/cli.py:270-272 | `{idx:03d}` is all digits, at least three long, zero-padded on the left of the plain rendering |
| Text.Pad3Value | src/jsonl_viewer/cli.py:270-272 | the padded digits read back as the index |
| Text.ReplaceChar | src/jsonl_viewer/cli.py:268 | `str.replace` of one character changes exactly the matching positions and keeps the length |
| Text.LStripChar | src/jsonl_viewer/cli.py:268 | `lstrip('_')` removes a prefix made only of `_` and the rest does not start with `_` |
| Text.PyPrefix | src/jsonl_viewer/cli.py:78 | `s[:n]` is a prefix; its length for non-negative and for negative `n` |
| Text.LStripSpace | src/jsonl_viewer/cli.py:26 | leading whitespace removed: a suffix not starting with whitespace, everything removed is whitespace |
| Text.RStripSpace | src/jsonl_viewer/cli.py:26 | trailing whitespace removed: a prefix not ending with whitespace, everything removed is whitespace |
| Text.Strip | src/jsonl_viewer/cli.py:26 | a stripped line neither starts nor ends with whitespace |
| Text.StripFrames | src/jsonl_viewer/cli.py:26 | the line is whitespace, then its stripped text, then whitespace |
| Text.StripEmptyIffBlank | src/jsonl_viewer/cli.py:26-28 | a line is skipped exactly when it is all whitespace |
| Loader.LoadJsonlRecords | src/jsonl_viewer/cli.py:21-33 | the records are the decoded non-blank lines in file order |
| Loader.LoadJsonlAccountsForLines | src/jsonl_viewer/cli.py:25-32 | every non-blank line gives exactly one record or one warning: their numbers add up to the number of non-blank lines |
| Loader.LoadJsonlWarnings | src/jsonl_viewer/cli.py:25-32 | warnings are physical 1-based line numbers, increasing, and name exactly the malformed lines |
| Loader.CleanFileHasNoWarnings | src/jsonl_viewer/cli.py:21-33 | a file without malformed lines gives no warning and one record per non-blank line |
| Loader.LoadTrajectoryJsonReads | src/jsonl_viewer/cli.py:42-49 | read off the members: with a `steps` key, the records are the items of its last binding (none when that value is not an array); without one, an array's items or the value itself as the only record |
| Loader.SmartLoad | src/jsonl_viewer/cli.py:59-71 | the trajectory tag is chosen exactly for an object document with `steps`, which then gives its steps; otherwise the line loader's records are used, silently |
| Loader.StepsDocumentLoadsItsSteps | src/jsonl_viewer/cli.py:62-65 | `{"steps": [...]}` loads as exactly those steps, tagged trajectory |
| Histogram.Bump | src/jsonl_viewer/cli.py:92 | incrementing keeps keys distinct and in place, adds only the new key, and appends a new key with count 1 |
| Histogram.BumpCount | src/jsonl_viewer/cli.py:92 | incrementing raises the count of that key by one and no other |
| Histogram.BumpTotal | src/jsonl_viewer/cli.py:92 | incrementing raises the sum of counts by one |
| Histogram.Tally | src/jsonl_viewer/cli.py:89-92 | a filled dict never holds a key twice |
| Histogram.TallyKeys | src/jsonl_viewer/cli.py:89-92 | the dict's keys are exactly the distinct keys seen |
| Histogram.TallyCount | src/jsonl_viewer/cli.py:89-92 | each key's count is its number of occurrences |
| Histogram.TallyTotal | src/jsonl_viewer/cli.py:89-92 | the counts sum to the number of keys tallied |
| Histogram.TallyFirstAppearanceOrder | src/jsonl_viewer/cli.py:89-92 | the dict lists keys in order of first occurrence |
| Histogram.Insert | src/jsonl_viewer/cli.py:95 | inserting into a descending-count list keeps it sorted and adds exactly the bucket |
| Histogram.SortByCount | src/jsonl_viewer/cli.py:95 | the printing order has descending counts and is a permutation of the dict's entries |
| Histogram.InsertWithCount | src/jsonl_viewer/cli.py:95 | inserting a bucket puts it ahead of the buckets with the same count and keeps their order |
| Histogram.SortByCountStable | src/jsonl_viewer/cli.py:95 | the printing order keeps buckets with equal counts in dict order, as Python's stable `sorted` does |
| Views.TypeHistogramCounts | src/jsonl_viewer/cli.py:89-92 | the type counts sum to the number of records, each equals the number of records of that type, and an untyped record is counted under "unknown" |
| Views.UntypedLogIsAllUnknown | src/jsonl_viewer/cli.py:89-92 | a non-empty log without any `type` has the single bucket "unknown" holding every record |
| Views.TypeReport | src/jsonl_viewer/cli.py:94-96 | the type lines are printed by descending count, as a permutation of the dict, with equal counts in order of first appearance |
| Views.ShowLine | src/jsonl_viewer/cli.py:104-112 | a line number selects a record exactly when it is in 1..N, and then the record at that position; otherwise the error reports N |
| Views.NumberedSound | src/jsonl_viewer/cli.py:118-119 | each selected entry carries a record number in 1..N and what the selector made of that record |
| Views.NumberedIncreasing | src/jsonl_viewer/cli.py:118-119 | selected record numbers are strictly increasing |
| Views.NumberedComplete | src/jsonl_viewer/cli.py:118-119 | every record the selector accepts is selected |
| Views.NumberedExact | src/jsonl_viewer/cli.py:118-119 | a record number is selected exactly when the selector accepts that record |
| Views.ShowByType | src/jsonl_viewer/cli.py:115-126 | exactly the records whose `type` equals the filter, each with its number, in record order |
| Views.ShowByTypeAgreesWithShowLine | src/jsonl_viewer/cli.py:118-122 | each filtered record is what `show_line` shows for its number |
| Views.ResolveAppend | src/jsonl_viewer/cli.py:136-142 | walking a path in two legs equals walking it in one |
| Views.NonObjectMidwayIsAbsent | src/jsonl_viewer/cli.py:137-142 | reaching a non-object before the last key makes the value absent |
| Views.ProjectDottedPath | src/jsonl_viewer/cli.py:135-144 | a dotted key made of dot-free segments walks exactly those segments, and null counts as absent |
| Views.ProjectNested | src/jsonl_viewer/cli.py:135-144 | `a.b.c` projects to the nested value when each step is an object field and the value is not null |
| Views.ProjectThroughNonObject | src/jsonl_viewer/cli.py:137-144 | `a.b.c` is absent when `a.b` is not an object |
| Views.Extracted | src/jsonl_viewer/cli.py:132-144 | the extracted pairs are exactly the requested keys that resolve, each once, with its value |
| Views.ExtractedInRequestOrder | src/jsonl_viewer/cli.py:133-147 | the pairs are in the order their keys were first requested, the order in which the dict receives them and `json.dumps` prints them; with `Views.Extracted` this fixes the pairs exactly |
| Views.ShowKeys | src/jsonl_viewer/cli.py:129-147 | one numbered line per record, in record order, and a record has a line exactly when at least one requested key gives a pair |
| Views.ShowKeysOmitsUnresolved | src/jsonl_viewer/cli.py:143-147 | a record gets a line exactly when some key resolves to a non-null value |
| Views.ExtractedNonEmpty | src/jsonl_viewer/cli.py:143-147 | a record has extracted pairs exactly when some requested key projects to a value |
| Views.PrintJsonText | src/jsonl_viewer/cli.py:74-79 | without a non-zero `truncate` shorter than the output, the text is unchanged; otherwise a strict prefix plus the notice, the first `truncate` characters when it is positive |
| Extract.EditPayload | src/jsonl_viewer/cli.py:182-183 | the edit payload splits back into the old marker, the old text, the new marker and the new text |
| Extract.ToolChange | src/jsonl_viewer/cli.py:172-183 | Write pairs with create, Edit with modify; the path defaults to "unknown" and the texts to "" |
| Extract.ContentChangesEntries | src/jsonl_viewer/cli.py:168-183 | the k-th change of a content list is the one the k-th `Write` or `Edit` tool use makes from its own `input`, at the record number, and there are as many changes as such tool uses |
| Extract.ContentChangesCounts | src/jsonl_viewer/cli.py:166-183 | message content yields one create per Write tool use and one modify per Edit tool use, all at the record number, and nothing else |
| Extract.NonAssistantHasNoContentChanges | src/jsonl_viewer/cli.py:166 | only assistant records contribute through message content |
| Extract.SingleWriteExample | src/jsonl_viewer/cli.py:164-176 | an assistant record whose only content entry writes `a.py` yields exactly that one create |
| Extract.CallWritesAreCreates | src/jsonl_viewer/cli.py:186-194 | top-level `tool_calls` yield only creates, all at the record number |
| Extract.CallWritesEntries | src/jsonl_viewer/cli.py:186-194 | the k-th top-level change is a create made from the `arguments` of the k-th `Write` call, at the record number, and there is one per `Write` call |
| Extract.CallChangesCounts | src/jsonl_viewer/cli.py:197-214 | trajectory `tool_calls` yield one create per Write call and one modify per Edit call |
| Extract.CallChangesEntries | src/jsonl_viewer/cli.py:199-214 | the k-th trajectory change is the one the k-th `Write` or `Edit` call makes from its own `arguments`, at the step position, and there is one per such call |
| Extract.CallChangesCreatesAreCallWrites | src/jsonl_viewer/cli.py:197-209 | the trajectory rule's creates are exactly the top-level rule's creates for the same calls |
| Extract.CallWritesReposition | src/jsonl_viewer/cli.py:197-209 | moving the top-level rule to another position changes the positions and nothing else |
| Extract.CallChangesTagged | src/jsonl_viewer/cli.py:197-214 | trajectory changes sit at the step position and pair tool with action |
| Extract.TrajectoryWritesTwice | src/jsonl_viewer/cli.py:185-214 | in trajectory format every Write call is emitted twice (the second copy at `step_id`, or identical when it is absent) and every Edit call once |
| Extract.LineFormatIgnoresCallEdits | src/jsonl_viewer/cli.py:185-197 | in line-delimited format `tool_calls` give one create per Write call at the record number and Edit calls give nothing |
| Extract.LineCreatesWithoutCalls | src/jsonl_viewer/cli.py:164-194 | a line-delimited record without Write calls yields one create change per Write tool use |
| Extract.RecordChangesWellFormed | src/jsonl_viewer/cli.py:164-214 | each change of a record pairs tool with action, and in line-delimited format sits at the record number |
| Extract.ExtractIsScan | src/jsonl_viewer/cli.py:164-214 | the changes are those of the front-to-back loop over the records, each record numbered by its position |
| Extract.ScanConcat | src/jsonl_viewer/cli.py:164-214 | the loop over two runs of records gives the first run's changes followed by the second run's, numbered after the first |
| Extract.ExtractConcat | src/jsonl_viewer/cli.py:164-214 | further records only append their own changes, numbered after the earlier records |
| Extract.ExtractPrefix | src/jsonl_viewer/cli.py:164-214 | scanning a prefix of the records gives a prefix of the changes |
| Extract.ExtractWellFormed | src/jsonl_viewer/cli.py:164-214 | the number of changes is the sum of per-record contributions; every change pairs tool with action; in line-delimited format positions lie in 1..N and never decrease |
| Report.Tick | src/jsonl_viewer/cli.py:225-228 | counting a change keeps paths distinct, adds only its path, keeps every listed path in its place (the list does not grow for a known path), and appends a new path at the end |
| Report.FileStats | src/jsonl_viewer/cli.py:224-228 | the tally never lists a path twice |
| Report.FileStatsFirstChangeOrder | src/jsonl_viewer/cli.py:224-231 | the file list is printed in order of first change: of two listed paths, the earlier one was changed before any change to the later one |
| Report.TickStat | src/jsonl_viewer/cli.py:226-228 | counting a change raises its own path's Write or Edit count by one and nothing else |
| Report.FileStatsCounts | src/jsonl_viewer/cli.py:224-228 | each path's Write and Edit counts are its numbers of Write and Edit changes |
| Report.FileStatsPaths | src/jsonl_viewer/cli.py:224-228 | the listed paths are exactly the paths of the changes |
| Report.FileStatsTotal | src/jsonl_viewer/cli.py:224-228 | all counts together equal the number of changes |
| Report.FileStatsNonEmpty | src/jsonl_viewer/cli.py:224-237 | every listed file has a non-zero Write or Edit count, so its line names writes or edits |
| Report.Display | src/jsonl_viewer/cli.py:250-254 | the shown text is the payload's first min(len, 3000) characters, with a notice exactly when the payload is longer than 3000 |
| Report.LengthNoticeStatesLength | src/jsonl_viewer/cli.py:252 | the notice's number reads back as the payload's full length |
| Report.Sanitized | src/jsonl_viewer/cli.py:268 | both separators become `_`, all other characters are kept |
| Report.SafeStem | src/jsonl_viewer/cli.py:268 | the sanitised path has no separator and does not start with `_` |
| Report.SafeStemKeepsPath | src/jsonl_viewer/cli.py:268 | the stem drops only a leading run of separators and underscores and keeps the rest of the sanitised path |
| Report.SaveName | src/jsonl_viewer/cli.py:266-272 | a saved name has no separator and starts with the padded index and `_`; for an edit the rest is `edit_`, the sanitised stem and `.diff`, otherwise `write_` and the stem, so tag and stem can be cut back out |
| Report.SaveNameIndexPrefix | src/jsonl_viewer/cli.py:270-272 | two names with the same padded-index prefix have the same index |
| Report.SaveNamesDistinct | src/jsonl_viewer/cli.py:266-272 | no two changes are saved under the same name, whatever their paths |
| Analyze.FirstWhere | src/jsonl_viewer/cli.py:289-297 | the loop with `break` finds the first matching record, or reports that none matches |
| Analyze.SessionInfo | src/jsonl_viewer/cli.py:289-297 | the header comes from the first system/init record, and is absent exactly when there is none |
| Analyze.SuggestsAnalysis | src/jsonl_viewer/cli.py:99-101 | the summary suggests the analysis exactly when the analysis has a session header to print |
| Analyze.ResultInfo | src/jsonl_viewer/cli.py:300-316 | the outcome comes from the first result record; success iff its subtype is "success"; absent exactly when there is none |
| Analyze.MissingUsageIsZero | src/jsonl_viewer/cli.py:309-315 | a result without usage reports zero for all four token counts |
| Analyze.ToolUseReport | src/jsonl_viewer/cli.py:338-339 | the tool histogram is printed by descending count, as a permutation of the tally, with equal counts in order of first use |
| Analyze.ToolUseNamesInCount | src/jsonl_viewer/cli.py:325-328 | each name is tallied once per tool_use entry that carries it |
| Analyze.EditCountsAgree | src/jsonl_viewer/cli.py:322-328 | the analysis' Edit count equals the number of modify changes extracted from a line-delimited log |
| Analyze.WriteCountsAgree | src/jsonl_viewer/cli.py:322-328 | with no Write calls in `tool_calls`, the analysis' Write count equals the number of create changes extracted |
| Analyze.ErrorsInSound | src/jsonl_viewer/cli.py:332-334 | as many errors as erroring entries, each at the record number with the snippet of one of those entries |
| Analyze.ErrorsInEntries | src/jsonl_viewer/cli.py:332-334 | the k-th error of a record is the snippet of its k-th entry with a truthy `is_error`, and there is one per such entry |
| Analyze.ErrorsSound | src/jsonl_viewer/cli.py:330-334 | every error names a record in 1..N and carries the snippet of one of its erroring user entries |
| Analyze.ErrorsOrdered | src/jsonl_viewer/cli.py:322-334 | errors are listed in record order |
| Analyze.ErrorsCount | src/jsonl_viewer/cli.py:322-334 | the number of errors is the number of erroring entries over all user records |
| Analyze.ErrorSnippetBounded | src/jsonl_viewer/cli.py:334 | an error snippet is text or a list of at most 80 characters or items |
| Analyze.ThoughtsFirstTextPerRecord | src/jsonl_viewer/cli.py:350-357 | at most one line per record, in record order, taken from an assistant record's first text entry; every assistant record with a text entry has one |

## Left out

- Reading files, splitting them into lines and decoding JSON text. The line
  loader takes the lines and a decoding oracle. The format decision takes the
  outcome of the whole-document decoding attempt, which is absent when the
  text does not start with `{` or does not decode.
- Printing: `json.dumps` rendering, headings, emoji, separators and the
  stderr diagnostics. `print_json` is modelled on the already-rendered text.
- Creating the output directory and writing saved files, including their two
  provenance header lines. Only the file names are modelled.
- argparse wiring and the dispatch in `main`: the empty-file exit, the
  process exit status of `show_line`, and the falsy `-l 0` fall-through.
- Floating-point values and arithmetic: JSON numbers are integers here. The
  duration `duration_ms / 1000` and the cost `total_cost_usd` of the outcome
  section are not modelled.
- Python's `True == 1` and `False == 0` key equality: histogram keys are
  compared as JSON values, so `true` and `1` are different buckets.
- Crash paths on malformed shapes are read as absent, where Python raises.
  This covers `.get` on a non-object, iterating a non-list field, and `len`
  or slicing of numbers. In particular, a user record whose `message.content`
  is a string has no entries here.
- Analyze.SessionInfo: a `tools` value that is a number, boolean or null
  counts as 0 tools in the header, where Python's `len` raises.
- Loader.LoadTrajectoryJsonReads: a `steps` value that is not an array is
  read as an empty list of records, where Python returns the value itself.
- Loader.SmartLoad: the same reading of a non-array `steps` value.
- Views.PrintJsonText: for a negative `truncate`, only "a strict prefix plus
  the notice" is stated, not the exact length Python's `output[:n]` keeps.
  `Text.PyPrefix` states that length.
- Extract.ToolChange: a `file_path` bound to `null`, a number or a boolean
  gives "unknown", where Python keeps the value and the file tally gives it a
  bucket of its own. An array or object `file_path` also gives "unknown",
  where Python raises `TypeError` at the tally's `file_path not in
  file_stats` (src/jsonl_viewer/cli.py:226), because the value is not
  hashable. A non-string `content` gives "", where Python keeps the value
  (see `Report.Display`). A non-string `old_string` or `new_string` gives "",
  where Python's f-string renders it with `str` (`null` as `None`).
- Report.Display: the payload is always text here. For a Write whose
  `content` is `null`, a number or a boolean, Python raises `TypeError` at
  `len(content)` (src/jsonl_viewer/cli.py:250), which ends the report. An
  array or object `content` is printed with `str`, and slicing an object of
  more than 3000 keys raises.
- Report.SaveName: the path is always text here, so a file name is always
  produced. With an output directory, a non-string `file_path` makes Python
  raise `AttributeError` at `.replace` (src/jsonl_viewer/cli.py:268), where
  the model names the file after "unknown". A non-string Write `content` also
  makes the file write raise `TypeError`; writing is not modelled.
- Views.TypeHistogramCounts: a `type` that is an array or an object is
  counted as a key of its own, where Python raises `TypeError` because the value is not
  hashable.
- Analyze.ToolUseNamesInCount: the same for a tool `name` that is an array or
  an object, which Python cannot use as a dict key.
- Lone surrogates: strings are sequences of Dafny `char`, so a lone surrogate that
  Python's `json.loads` accepts in a `\ud800` escape cannot be represented.
- Analyze.ResultInfo: the duration and cost fields are not part of the
  outcome, because they are floating point.

=== FILE: analyze.dfy ===
/**
  The deep analysis of an agent session log (`analyze_claude_code`): the
  session header, the outcome, the tool-use histogram, the tool errors and
  the first line of each assistant turn's text.

  The printed report is left out; each section is modelled as the values it
  prints, in the order it prints them.
 */
module Analyze {
  import opened JsonValue
  import Histogram
  import Views
  import Extract
  import Loader

  /** The index of the first element satisfying `p`, if any. */
  function FirstWhere(xs: seq<Json>, p: Json -> bool): (k: Option<nat>)
    ensures k.Some? ==> k.value < |xs| && p(xs[k.value]) && forall j :: 0 <= j < k.value ==> !p(xs[j])
    ensures k.None? ==> forall j :: 0 <= j < |xs| ==> !p(xs[j])
    decreases |xs|
  {
    if |xs| == 0 then None
    else if p(xs[0]) then Some(0)
    else
      match FirstWhere(xs[1..], p)
      case Some(k) => Some(k + 1)
      case None => None
  }

  // ---------------------------------------------------------------------------
  // Session header: the first `system`/`init` record
  // ---------------------------------------------------------------------------

  predicate IsInit(r: Json) {
    FieldIs(r, "type", "system") && FieldIs(r, "subtype", "init")
  }

  /** Python's `len` of a string, list or object (an object counts its
      distinct keys); any other value is read as having no tools. */
  function LengthOf(v: Json): nat {
    match v
    case JString(s) => |s|
    case JArray(items) => |items|
    case JObject(members) => |set i | 0 <= i < |members| :: members[i].0|
    case _ => 0
  }

  /** What the header prints: model, client version and working directory
      (JSON null where a key is missing) and the number of tools. */
  datatype Session = Session(model: Json, version: Json, cwd: Json, tools: nat)

  function SessionOf(r: Json): Session {
    Session(GetOr(r, "model", JNull), GetOr(r, "claude_code_version", JNull), GetOr(r, "cwd", JNull),
      LengthOf(GetOr(r, "tools", JArray([]))))
  }

  /** The header comes from the first `system`/`init` record; without one
      the section is not printed. */
  function SessionInfo(records: seq<Json>): (s: Option<Session>)
    ensures s.None? <==> forall j :: 0 <= j < |records| ==> !IsInit(records[j])
    ensures s.Some? ==> exists k :: 0 <= k < |records| && IsInit(records[k]) && s.value == SessionOf(records[k]) &&
                                   forall j :: 0 <= j < k ==> !IsInit(records[j])
  {
    match FirstWhere(records, IsInit)
    case Some(k) => Some(SessionOf(records[k]))
    case None => None
  }

  /** The summary's hint to run the analysis: some record is a
      `system`/`init` record. It is shown exactly when the analysis would
      print a session header. */
  function SuggestsAnalysis(records: seq<Json>): (b: bool)
    ensures b <==> SessionInfo(records).Some?
  {
    exists i :: 0 <= i < |records| && IsInit(records[i])
  }

  // ---------------------------------------------------------------------------
  // Outcome: the first `result` record
  // ---------------------------------------------------------------------------

  predicate IsResult(r: Json) {
    FieldIs(r, "type", "result")
  }

  /** Token usage, each count defaulting to 0. */
  datatype Usage = Usage(input: Json, output: Json, cacheRead: Json, cacheCreation: Json)

  /** What the outcome section prints, apart from duration and cost. */
  datatype Outcome = Outcome(success: bool, turns: Json, usage: Usage)

  function UsageOf(u: Json): Usage {
    Usage(GetOr(u, "input_tokens", JInt(0)), GetOr(u, "output_tokens", JInt(0)),
      GetOr(u, "cache_read_input_tokens", JInt(0)), GetOr(u, "cache_creation_input_tokens", JInt(0)))
  }

  function OutcomeOf(r: Json): Outcome {
    Outcome(FieldIs(r, "subtype", "success"), GetOr(r, "num_turns", JNull), UsageOf(GetOr(r, "usage", JObject([]))))
  }

  /** The outcome comes from the first `result` record; success means its
      `subtype` is `success`, anything else is reported as a failure. */
  function ResultInfo(records: seq<Json>): (o: Option<Outcome>)
    ensures o.None? <==> forall j :: 0 <= j < |records| ==> !IsResult(records[j])
    ensures o.Some? ==> exists k :: 0 <= k < |records| && IsResult(records[k]) &&
                                   o.value == OutcomeOf(records[k]) &&
                                   (o.value.success <==> FieldIs(records[k], "subtype", "success")) &&
                                   forall j :: 0 <= j < k ==> !IsResult(records[j])
  {
    match FirstWhere(records, IsResult)
    case Some(k) => Some(OutcomeOf(records[k]))
    case None => None
  }

  /** A missing `usage` reports zero for every count. */
  lemma MissingUsageIsZero(r: Json)
    requires Get(r, "usage").None?
    ensures OutcomeOf(r).usage == Usage(JInt(0), JInt(0), JInt(0), JInt(0))
  {
  }

  // ---------------------------------------------------------------------------
  // Tool-use histogram
  // ---------------------------------------------------------------------------

  predicate IsToolUse(c: Json) {
    FieldIs(c, "type", "tool_use")
  }

  /** `c.get('name')` of every `tool_use` entry, in order. */
  function ToolUseNamesIn(entries: seq<Json>): seq<Json>
    decreases |entries|
  {
    if |entries| == 0 then []
    else (if IsToolUse(entries[0]) then [GetOr(entries[0], "name", JNull)] else []) + ToolUseNamesIn(entries[1..])
  }

  /** The tool names used by the assistant records, in record order. */
  function ToolUseNames(records: seq<Json>): seq<Json>
    decreases |records|
  {
    if |records| == 0 then []
    else ToolUseNames(records[..|records| - 1]) + ToolUseNamesIn(Extract.AssistantContent(records[|records| - 1]))
  }

  /** The tool-use dict, before printing. */
  function ToolUseCounts(records: seq<Json>): seq<Histogram.Bucket> {
    Histogram.Tally(ToolUseNames(records))
  }

  /** The tool-use section as printed: most used first. */
  function ToolUseReport(records: seq<Json>): (report: seq<Histogram.Bucket>)
    ensures Histogram.SortedByCountDesc(report)
    ensures multiset(report) == multiset(ToolUseCounts(records))
    ensures forall c :: Histogram.WithCount(report, c) == Histogram.WithCount(ToolUseCounts(records), c)
  {
    Histogram.SortByCountStable(ToolUseCounts(records));
    Histogram.SortByCount(ToolUseCounts(records))
  }

  lemma {:induction false} ToolUseNamesInCount(entries: seq<Json>, name: string)
    ensures multiset(ToolUseNamesIn(entries))[JString(name)] == Extract.CountToolUses(entries, name)
    decreases |entries|
  {
    if |entries| > 0 {
      ToolUseNamesInCount(entries[1..], name);
      var c := entries[0];
      var head := if IsToolUse(c) then [GetOr(c, "name", JNull)] else [];
      assert ToolUseNamesIn(entries) == head + ToolUseNamesIn(entries[1..]);
      assert multiset(ToolUseNamesIn(entries)) == multiset(head) + multiset(ToolUseNamesIn(entries[1..]));
      assert (GetOr(c, "name", JNull) == JString(name)) <==> FieldIs(c, "name", name);
    }
  }

  /** Every `Edit` tool use counted by the analysis is one `modify` change
      extracted from a line-delimited log, and the other way round. */
  lemma {:induction false} EditCountsAgree(records: seq<Json>)
    ensures |Extract.Modifies(Extract.ExtractAgentCode(records, Loader.Jsonl))| ==
      Histogram.CountOf(ToolUseCounts(records), JString("Edit"))
    decreases |records|
  {
    Histogram.TallyCount(ToolUseNames(records), JString("Edit"));
    if |records| > 0 {
      var init := records[..|records| - 1];
      var r := records[|records| - 1];
      var i := |records|;
      EditCountsAgree(init);
      Histogram.TallyCount(ToolUseNames(init), JString("Edit"));
      Extract.ModifiesAppend(Extract.ExtractAgentCode(init, Loader.Jsonl), Extract.RecordChanges(i, r, Loader.Jsonl));
      Extract.LineFormatIgnoresCallEdits(i, r);
      Extract.ContentChangesCounts(i, Extract.AssistantContent(r));
      ToolUseNamesInCount(Extract.AssistantContent(r), "Edit");
      assert multiset(ToolUseNames(records)) ==
        multiset(ToolUseNames(init)) + multiset(ToolUseNamesIn(Extract.AssistantContent(r)));
    }
  }

  /** When no record carries `Write` calls in `tool_calls`, every `Write`
      tool use counted by the analysis is one `create` change extracted from
      a line-delimited log, and the other way round. */
  lemma {:induction false} WriteCountsAgree(records: seq<Json>)
    requires forall i :: 0 <= i < |records| ==> Extract.Rule2(i + 1, records[i]) == []
    ensures |Extract.Creates(Extract.ExtractAgentCode(records, Loader.Jsonl))| ==
      Histogram.CountOf(ToolUseCounts(records), JString("Write"))
    decreases |records|
  {
    Histogram.TallyCount(ToolUseNames(records), JString("Write"));
    if |records| > 0 {
      var init := records[..|records| - 1];
      var r := records[|records| - 1];
      var i := |records|;
      assert forall j :: 0 <= j < |init| ==> init[j] == records[j];
      WriteCountsAgree(init);
      Histogram.TallyCount(ToolUseNames(init), JString("Write"));
      Extract.CreatesAppend(Extract.ExtractAgentCode(init, Loader.Jsonl), Extract.RecordChanges(i, r, Loader.Jsonl));
      Extract.LineCreatesWithoutCalls(i, r);
      ToolUseNamesInCount(Extract.AssistantContent(r), "Write");
      assert multiset(ToolUseNames(records)) ==
        multiset(ToolUseNames(init)) + multiset(ToolUseNamesIn(Extract.AssistantContent(r)));
    }
  }

  // ---------------------------------------------------------------------------
  // Tool errors
  // ---------------------------------------------------------------------------

  /** `message.content[]` of a user record; no entries otherwise. */
  function UserContent(r: Json): seq<Json> {
    if FieldIs(r, "type", "user") then EntriesOf(GetOr(r, "message", JNull), "content") else []
  }

  predicate IsErrorEntry(c: Json) {
    Truthy(GetOr(c, "is_error", JNull))
  }

  /** The first 80 characters (or list items) of an error entry's `content`. */
  function ErrorSnippet(c: Json): Json {
    Snippet(GetOr(c, "content", JString("")), 80)
  }

  function ErrorsIn(i: nat, entries: seq<Json>): seq<(nat, Json)>
    decreases |entries|
  {
    if |entries| == 0 then []
    else (if IsErrorEntry(entries[0]) then [(i, ErrorSnippet(entries[0]))] else []) + ErrorsIn(i, entries[1..])
  }

  /** The k-th error of a record is the snippet of its k-th erroring entry,
      at the record's number. */
  lemma {:induction false} ErrorsInEntries(i: nat, entries: seq<Json>)
    ensures |ErrorsIn(i, entries)| == |Filter(entries, IsErrorEntry)|
    ensures forall k :: 0 <= k < |ErrorsIn(i, entries)| ==>
      ErrorsIn(i, entries)[k] == (i, ErrorSnippet(Filter(entries, IsErrorEntry)[k]))
    decreases |entries|
  {
    if |entries| > 0 {
      var tail := entries[1..];
      ErrorsInEntries(i, tail);
      assert entries == [entries[0]] + tail;
      var head := if IsErrorEntry(entries[0]) then [(i, ErrorSnippet(entries[0]))] else [];
      assert ErrorsIn(i, entries) == head + ErrorsIn(i, tail);
      assert Filter(entries, IsErrorEntry) ==
        (if IsErrorEntry(entries[0]) then [entries[0]] else []) + Filter(tail, IsErrorEntry);
    }
  }

  /** The error list: one `(record number, snippet)` per erroring entry of a
      user record, in order. */
  function Errors(records: seq<Json>): seq<(nat, Json)>
    decreases |records|
  {
    if |records| == 0 then []
    else Errors(records[..|records| - 1]) + ErrorsIn(|records|, UserContent(records[|records| - 1]))
  }

  function CountErrors(entries: seq<Json>): nat
    decreases |entries|
  {
    if |entries| == 0 then 0 else (if IsErrorEntry(entries[0]) then 1 else 0) + CountErrors(entries[1..])
  }

  predicate ErrorAmong(entries: seq<Json>, snippet: Json) {
    exists e :: 0 <= e < |entries| && IsErrorEntry(entries[e]) && snippet == ErrorSnippet(entries[e])
  }

  lemma {:induction false} ErrorsInSound(i: nat, entries: seq<Json>)
    ensures |ErrorsIn(i, entries)| == CountErrors(entries)
    ensures forall k :: 0 <= k < |ErrorsIn(i, entries)| ==>
      ErrorsIn(i, entries)[k].0 == i && ErrorAmong(entries, ErrorsIn(i, entries)[k].1)
    decreases |entries|
  {
    if |entries| > 0 {
      ErrorsInSound(i, entries[1..]);
      var head := if IsErrorEntry(entries[0]) then [(i, ErrorSnippet(entries[0]))] else [];
      var tail := ErrorsIn(i, entries[1..]);
      var out := ErrorsIn(i, entries);
      assert out == head + tail;
      forall k | 0 <= k < |out| ensures out[k].0 == i && ErrorAmong(entries, out[k].1) {
        if k < |head| {
          assert IsErrorEntry(entries[0]) && out[k].1 == ErrorSnippet(entries[0]);
        } else {
          assert out[k] == tail[k - |head|];
          var e :| 0 <= e < |entries[1..]| && IsErrorEntry(entries[1..][e]) && tail[k - |head|].1 == ErrorSnippet(entries[1..][e]);
          assert entries[1..][e] == entries[e + 1];
        }
      }
    }
  }

  /** `snippet` is what one of `r`'s erroring user-content entries reports. */
  predicate ErrorOf(r: Json, snippet: Json) {
    ErrorAmong(UserContent(r), snippet)
  }

  /** Every reported error names a user record and carries the snippet of one
      of that record's erroring entries. */
  lemma {:induction false} ErrorsSound(records: seq<Json>)
    ensures forall k :: 0 <= k < |Errors(records)| ==>
      1 <= Errors(records)[k].0 <= |records| && ErrorOf(records[Errors(records)[k].0 - 1], Errors(records)[k].1)
    decreases |records|
  {
    if |records| > 0 {
      var init := records[..|records| - 1];
      var n := |records|;
      ErrorsSound(init);
      ErrorsInSound(n, UserContent(records[n - 1]));
      var prev := Errors(init);
      var here := ErrorsIn(n, UserContent(records[n - 1]));
      var out := Errors(records);
      assert out == prev + here;
      forall k | 0 <= k < |out| ensures 1 <= out[k].0 <= n && ErrorOf(records[out[k].0 - 1], out[k].1) {
        if k < |prev| {
          assert out[k] == prev[k];
          assert records[out[k].0 - 1] == init[out[k].0 - 1];
        } else {
          assert out[k] == here[k - |prev|];
        }
      }
    }
  }

  /** Errors are reported in record order. */
  lemma {:induction false} ErrorsOrdered(records: seq<Json>)
    ensures forall k :: 0 <= k < |Errors(records)| ==> Errors(records)[k].0 <= |records|
    ensures forall k, m :: 0 <= k < m < |Errors(records)| ==> Errors(records)[k].0 <= Errors(records)[m].0
    decreases |records|
  {
    if |records| > 0 {
      var init := records[..|records| - 1];
      var n := |records|;
      ErrorsOrdered(init);
      ErrorsInSound(n, UserContent(records[n - 1]));
      OrderedAppend(Errors(init), ErrorsIn(n, UserContent(records[n - 1])), n);
    }
  }

  /** Entries numbered `n` keep the order when appended after entries numbered
      at most `n`. */
  lemma OrderedAppend(prev: seq<(nat, Json)>, here: seq<(nat, Json)>, n: nat)
    requires forall k :: 0 <= k < |prev| ==> prev[k].0 <= n
    requires forall k, m :: 0 <= k < m < |prev| ==> prev[k].0 <= prev[m].0
    requires forall k :: 0 <= k < |here| ==> here[k].0 == n
    ensures forall k :: 0 <= k < |prev + here| ==> (prev + here)[k].0 <= n
    ensures forall k, m :: 0 <= k < m < |prev + here| ==> (prev + here)[k].0 <= (prev + here)[m].0
  {
    var out := prev + here;
    forall k | 0 <= k < |out| ensures out[k].0 <= n {
      if k < |prev| { assert out[k] == prev[k]; } else { assert out[k] == here[k - |prev|]; }
    }
    forall k, m | 0 <= k < m < |out| ensures out[k].0 <= out[m].0 {
      if m < |prev| {
        assert out[k] == prev[k] && out[m] == prev[m];
      } else if k < |prev| {
        assert out[k] == prev[k] && out[m] == here[m - |prev|];
      } else {
        assert out[k] == here[k - |prev|] && out[m] == here[m - |prev|];
      }
    }
  }

  /** The number of reported errors is the number of erroring entries over all user records. */
  function TotalErrors(records: seq<Json>): nat
    decreases |records|
  {
    if |records| == 0 then 0
    else TotalErrors(records[..|records| - 1]) + CountErrors(UserContent(records[|records| - 1]))
  }

  lemma {:induction false} ErrorsCount(records: seq<Json>)
    ensures |Errors(records)| == TotalErrors(records)
    decreases |records|
  {
    if |records| > 0 {
      ErrorsCount(records[..|records| - 1]);
      ErrorsInSound(|records|, UserContent(records[|records| - 1]));
    }
  }

  /** A snippet never exceeds 80 characters. */
  lemma ErrorSnippetBounded(c: Json)
    ensures ErrorSnippet(c).JString? || ErrorSnippet(c).JArray?
    ensures ErrorSnippet(c).JString? ==> |ErrorSnippet(c).s| <= 80
    ensures ErrorSnippet(c).JArray? ==> |ErrorSnippet(c).items| <= 80
  {
  }

  // ---------------------------------------------------------------------------
  // Thinking: the first text of each assistant record
  // ---------------------------------------------------------------------------

  predicate IsTextEntry(c: Json) {
    FieldIs(c, "type", "text")
  }

  /** The first 60 characters of an assistant record's first `text` entry;
      a record without one prints nothing. */
  function FirstText(r: Json): Option<Json> {
    var content := Extract.AssistantContent(r);
    match FirstWhere(content, IsTextEntry)
    case Some(k) => Some(Snippet(GetOr(content[k], "text", JString("")), 60))
    case None => None
  }

  /** An assistant record with at least one text entry. */
  predicate HasText(r: Json) {
    var content := Extract.AssistantContent(r);
    exists e :: 0 <= e < |content| && IsTextEntry(content[e])
  }

  /** A record yields a line exactly when it is an assistant record with a
      text entry, and the line is the snippet of its first text entry. */
  lemma FirstTextMeaning(r: Json)
    ensures FirstText(r).Some? <==> HasText(r)
    ensures FirstText(r).Some? ==> FieldIs(r, "type", "assistant") && FirstTextIs(r, FirstText(r).value)
  {
    var content := Extract.AssistantContent(r);
    if HasText(r) {
      var e :| 0 <= e < |content| && IsTextEntry(content[e]);
      assert FirstWhere(content, IsTextEntry).Some?;
    }
  }

  function Thoughts(records: seq<Json>): seq<(nat, Json)> {
    Views.Numbered(records, FirstText)
  }

  /** `t` is what the first text entry of `r`'s assistant content shows. */
  predicate FirstTextIs(r: Json, t: Json) {
    var content := Extract.AssistantContent(r);
    exists e :: 0 <= e < |content| && IsTextEntry(content[e]) &&
      (forall j :: 0 <= j < e ==> !IsTextEntry(content[j])) &&
      t == Snippet(GetOr(content[e], "text", JString("")), 60)
  }

  /** At most one line per record, in record order; each is taken from an
      assistant record's first text entry; and every assistant record with a
      text entry contributes one. */
  lemma ThoughtsFirstTextPerRecord(records: seq<Json>)
    ensures forall k, m :: 0 <= k < m < |Thoughts(records)| ==> Thoughts(records)[k].0 < Thoughts(records)[m].0
    ensures forall k :: 0 <= k < |Thoughts(records)| ==>
      1 <= Thoughts(records)[k].0 <= |records| &&
      FieldIs(records[Thoughts(records)[k].0 - 1], "type", "assistant") &&
      FirstTextIs(records[Thoughts(records)[k].0 - 1], Thoughts(records)[k].1)
    ensures forall j :: 0 <= j < |records| && HasText(records[j]) ==> j + 1 in Views.NumbersOf(Thoughts(records))
  {
    Views.NumberedIncreasing(records, FirstText);
    ThoughtsSound(records);
    ThoughtsComplete(records);
  }

  lemma ThoughtsSound(records: seq<Json>)
    ensures forall k :: 0 <= k < |Thoughts(records)| ==>
      1 <= Thoughts(records)[k].0 <= |records| &&
      FieldIs(records[Thoughts(records)[k].0 - 1], "type", "assistant") &&
      FirstTextIs(records[Thoughts(records)[k].0 - 1], Thoughts(records)[k].1)
  {
    Views.NumberedSound(records, FirstText);
    LinesSound(records, Thoughts(records));
  }

  /** Lines taken by `FirstText` from numbered records are first-text snippets
      of assistant records. */
  lemma LinesSound(records: seq<Json>, out: seq<(nat, Json)>)
    requires forall k :: 0 <= k < |out| ==>
      1 <= out[k].0 <= |records| && FirstText(records[out[k].0 - 1]) == Some(out[k].1)
    ensures forall k :: 0 <= k < |out| ==>
      1 <= out[k].0 <= |records| &&
      FieldIs(records[out[k].0 - 1], "type", "assistant") &&
      FirstTextIs(records[out[k].0 - 1], out[k].1)
  {
    forall k | 0 <= k < |out|
      ensures FieldIs(records[out[k].0 - 1], "type", "assistant") && FirstTextIs(records[out[k].0 - 1], out[k].1)
    {
      FirstTextSound(records[out[k].0 - 1], out[k].1);
    }
  }

  lemma FirstTextSound(r: Json, t: Json)
    requires FirstText(r) == Some(t)
    ensures FieldIs(r, "type", "assistant") && FirstTextIs(r, t)
  {
    FirstTextMeaning(r);
  }

  lemma ThoughtsComplete(records: seq<Json>)
    ensures forall j :: 0 <= j < |records| && HasText(records[j]) ==> j + 1 in Views.NumbersOf(Thoughts(records))
  {
    Views.NumberedComplete(records, FirstText);
    forall j | 0 <= j < |records| && HasText(records[j]) ensures FirstText(records[(j + 1) - 1]).Some? {
      FirstTextMeaning(records[j]);
    }
  }
}

=== FILE: extract.dfy ===
/**
  Code-change extraction (`extract_agent_code`, the scan part).

  Three independent rules run over every record, numbered from 1, and each
  yields a sequence of code changes; a record contributes rule 1's changes,
  then rule 2's, then rule 3's, and records contribute in order.

  1. An `assistant` record: each `message.content[]` entry of type `tool_use`
     named `Write` or `Edit`.
  2. Any record: each top-level `tool_calls[]` entry whose `function_name` is
     `Write` (an `Edit` call is ignored here).
  3. Only in trajectory format: the same `tool_calls[]` again, `Write` and
     `Edit` both, positioned at the record's `step_id` when it has one.

  So in trajectory format every `Write` call is emitted twice.
 */
module Extract {
  import opened JsonValue
  import opened Loader

  datatype Tool = Write | Edit
  datatype Action = Create | Modify

  /** One `code_changes` tuple: where it was found, the tool, the target
      path, the action and the payload text. Rules 1 and 2 position a change
      at the record number; rule 3 at the record's `step_id`, which may be
      any JSON value. */
  datatype CodeChange = CodeChange(position: Json, tool: Tool, path: string, action: Action, payload: string)

  /** Every change pairs `Write` with `create` and `Edit` with `modify`. */
  predicate Tagged(c: CodeChange) {
    c.tool == Write <==> c.action == Create
  }

  const OldMarker: string := "--- OLD ---\n"
  const NewMarker: string := "\n\n+++ NEW +++\n"

  /** The payload of an edit: the old text and the new text under fixed
      markers, so that both can be cut back out of it. */
  function EditPayload(before: string, after: string): (p: string)
    ensures |p| == |OldMarker| + |before| + |NewMarker| + |after|
    ensures p[..|OldMarker|] == OldMarker
    ensures p[|OldMarker|..|OldMarker| + |before|] == before
    ensures p[|OldMarker| + |before|..|p| - |after|] == NewMarker
    ensures p[|p| - |after|..] == after
  {
    var p := OldMarker + before + NewMarker + after;
    assert p == OldMarker + (before + (NewMarker + after));
    p
  }

  /** The change a `Write` or `Edit` invocation with arguments `args` makes;
      the path defaults to "unknown", every text to "". */
  function ToolChange(position: Json, tool: Tool, args: Json): (c: CodeChange)
    ensures Tagged(c) && c.position == position && c.tool == tool
    ensures c.path == StringOr(args, "file_path", "unknown")
    ensures tool == Write ==> c.payload == StringOr(args, "content", "")
    ensures tool == Edit ==>
      c.payload == EditPayload(StringOr(args, "old_string", ""), StringOr(args, "new_string", ""))
  {
    var path := StringOr(args, "file_path", "unknown");
    match tool
    case Write => CodeChange(position, Write, path, Create, StringOr(args, "content", ""))
    case Edit =>
      CodeChange(position, Edit, path, Modify,
        EditPayload(StringOr(args, "old_string", ""), StringOr(args, "new_string", "")))
  }

  // ---------------------------------------------------------------------------
  // Rule 1: assistant message content
  // ---------------------------------------------------------------------------

  /** The tool a `message.content[]` entry invokes: a `tool_use` named
      `Write` or `Edit`. */
  function ContentTool(c: Json): Option<Tool> {
    if !FieldIs(c, "type", "tool_use") then None
    else if FieldIs(c, "name", "Write") then Some(Write)
    else if FieldIs(c, "name", "Edit") then Some(Edit)
    else None
  }

  predicate InvokesContentTool(c: Json) {
    ContentTool(c).Some?
  }

  /** The change a `message.content[]` entry makes, if any. */
  function ContentEntryChange(i: nat, c: Json): Option<CodeChange> {
    match ContentTool(c)
    case Some(t) => Some(ToolChange(JInt(i), t, GetOr(c, "input", JNull)))
    case None => None
  }

  function ContentChanges(i: nat, entries: seq<Json>): seq<CodeChange>
    decreases |entries|
  {
    if |entries| == 0 then []
    else
      (match ContentEntryChange(i, entries[0]) case Some(c) => [c] case None => [])
      + ContentChanges(i, entries[1..])
  }

  /** Rule 1 over a content list: the k-th change is the one the k-th
      `Write`/`Edit` tool use makes from its own `input`, at record `i`. */
  lemma {:induction false} ContentChangesEntries(i: nat, entries: seq<Json>)
    ensures |ContentChanges(i, entries)| == |Filter(entries, InvokesContentTool)|
    ensures forall k :: 0 <= k < |ContentChanges(i, entries)| ==>
      var u := Filter(entries, InvokesContentTool)[k];
      InvokesContentTool(u) && ContentEntryChange(i, u) == Some(ContentChanges(i, entries)[k])
    decreases |entries|
  {
    if |entries| > 0 {
      var tail := entries[1..];
      ContentChangesEntries(i, tail);
      var found := Filter(entries, InvokesContentTool);
      var rest := Filter(tail, InvokesContentTool);
      assert found == (if InvokesContentTool(entries[0]) then [entries[0]] else []) + rest
      by {
        assert entries == [entries[0]] + tail;
      }
      ContentChangesCons(i, entries);
      ContentPairsCons(i, entries[0], rest, ContentChanges(i, tail));
    }
  }

  /** One more entry in front keeps each change paired with its tool use. */
  lemma ContentPairsCons(i: nat, e: Json, rest: seq<Json>, changes: seq<CodeChange>)
    requires |changes| == |rest|
    requires forall k :: 0 <= k < |changes| ==>
      InvokesContentTool(rest[k]) && ContentEntryChange(i, rest[k]) == Some(changes[k])
    ensures
      var found := (if InvokesContentTool(e) then [e] else []) + rest;
      var out := (if InvokesContentTool(e) then [ContentEntryChange(i, e).value] else []) + changes;
      |out| == |found| &&
      forall k :: 0 <= k < |out| ==> InvokesContentTool(found[k]) && ContentEntryChange(i, found[k]) == Some(out[k])
  {
    if InvokesContentTool(e) {
      ContentPairsHit(i, e, rest, changes);
    } else {
      assert [] + rest == rest && [] + changes == changes;
    }
  }

  lemma ContentPairsHit(i: nat, e: Json, rest: seq<Json>, changes: seq<CodeChange>)
    requires InvokesContentTool(e) && |changes| == |rest|
    requires forall k :: 0 <= k < |changes| ==>
      InvokesContentTool(rest[k]) && ContentEntryChange(i, rest[k]) == Some(changes[k])
    ensures
      var found := [e] + rest;
      var out := [ContentEntryChange(i, e).value] + changes;
      |out| == |found| &&
      forall k :: 0 <= k < |out| ==> InvokesContentTool(found[k]) && ContentEntryChange(i, found[k]) == Some(out[k])
  {
    var found := [e] + rest;
    var out := [ContentEntryChange(i, e).value] + changes;
    forall k | 0 <= k < |out| ensures InvokesContentTool(found[k]) && ContentEntryChange(i, found[k]) == Some(out[k]) {
      if k > 0 {
        assert found[k] == rest[k - 1] && out[k] == changes[k - 1];
      }
    }
  }

  lemma ContentChangesCons(i: nat, entries: seq<Json>)
    requires |entries| > 0
    ensures ContentChanges(i, entries) ==
      (if InvokesContentTool(entries[0]) then [ContentEntryChange(i, entries[0]).value] else [])
      + ContentChanges(i, entries[1..])
  {
  }

  /** `message.content[]` of an assistant record; no entries otherwise. */
  function AssistantContent(r: Json): seq<Json> {
    if FieldIs(r, "type", "assistant") then EntriesOf(GetOr(r, "message", JNull), "content") else []
  }

  function Rule1(i: nat, r: Json): seq<CodeChange> {
    ContentChanges(i, AssistantContent(r))
  }

  // ---------------------------------------------------------------------------
  // Rules 2 and 3: tool_calls
  // ---------------------------------------------------------------------------

  /** The tool a `tool_calls[]` entry invokes, when it is `Write` or `Edit`. */
  function CallTool(tc: Json): Option<Tool> {
    if FieldIs(tc, "function_name", "Write") then Some(Write)
    else if FieldIs(tc, "function_name", "Edit") then Some(Edit)
    else None
  }

  predicate IsWriteCall(tc: Json) {
    CallTool(tc) == Some(Write)
  }

  predicate IsCodeCall(tc: Json) {
    CallTool(tc).Some?
  }

  /** Rule 2 over a `tool_calls` list: `Write` calls only. */
  function CallWrites(position: Json, calls: seq<Json>): seq<CodeChange>
    decreases |calls|
  {
    if |calls| == 0 then []
    else
      (if IsWriteCall(calls[0])
       then [ToolChange(position, Write, GetOr(calls[0], "arguments", JNull))] else [])
      + CallWrites(position, calls[1..])
  }

  /** Rule 2: the k-th change is the create the k-th `Write` call makes from
      its own `arguments`. */
  lemma {:induction false} CallWritesEntries(position: Json, calls: seq<Json>)
    ensures |CallWrites(position, calls)| == |Filter(calls, IsWriteCall)|
    ensures forall k :: 0 <= k < |CallWrites(position, calls)| ==>
      CallWrites(position, calls)[k] ==
        ToolChange(position, Write, GetOr(Filter(calls, IsWriteCall)[k], "arguments", JNull))
    decreases |calls|
  {
    if |calls| > 0 {
      var tail := calls[1..];
      CallWritesEntries(position, tail);
      assert calls == [calls[0]] + tail;
      var head := if IsWriteCall(calls[0])
        then [ToolChange(position, Write, GetOr(calls[0], "arguments", JNull))] else [];
      assert CallWrites(position, calls) == head + CallWrites(position, tail);
      assert Filter(calls, IsWriteCall) == (if IsWriteCall(calls[0]) then [calls[0]] else []) + Filter(tail, IsWriteCall);
    }
  }

  /** Rule 3 over a `tool_calls` list: `Write` and `Edit` calls. */
  function CallChanges(position: Json, calls: seq<Json>): seq<CodeChange>
    decreases |calls|
  {
    if |calls| == 0 then []
    else
      (match CallTool(calls[0])
       case Some(t) => [ToolChange(position, t, GetOr(calls[0], "arguments", JNull))]
       case None => [])
      + CallChanges(position, calls[1..])
  }

  /** Rule 3: the k-th change is the one the k-th `Write` or `Edit` call
      makes from its own `arguments`. */
  lemma {:induction false} CallChangesEntries(position: Json, calls: seq<Json>)
    ensures |CallChanges(position, calls)| == |Filter(calls, IsCodeCall)|
    ensures forall k :: 0 <= k < |CallChanges(position, calls)| ==>
      var u := Filter(calls, IsCodeCall)[k];
      IsCodeCall(u) && CallChanges(position, calls)[k] == CallChange(position, u)
    decreases |calls|
  {
    if |calls| > 0 {
      var tail := calls[1..];
      CallChangesEntries(position, tail);
      var found := Filter(calls, IsCodeCall);
      var rest := Filter(tail, IsCodeCall);
      assert found == (if IsCodeCall(calls[0]) then [calls[0]] else []) + rest
      by {
        assert calls == [calls[0]] + tail;
      }
      CallChangesCons(position, calls);
      CallPairsCons(position, calls[0], rest, CallChanges(position, tail));
    }
  }

  /** One more call in front keeps each change paired with its call. */
  lemma CallPairsCons(position: Json, u: Json, rest: seq<Json>, changes: seq<CodeChange>)
    requires |changes| == |rest|
    requires forall k :: 0 <= k < |changes| ==> IsCodeCall(rest[k]) && changes[k] == CallChange(position, rest[k])
    ensures
      var found := (if IsCodeCall(u) then [u] else []) + rest;
      var out := (if IsCodeCall(u) then [CallChange(position, u)] else []) + changes;
      |out| == |found| &&
      forall k :: 0 <= k < |out| ==> IsCodeCall(found[k]) && out[k] == CallChange(position, found[k])
  {
    if IsCodeCall(u) {
      var found := [u] + rest;
      var out := [CallChange(position, u)] + changes;
      forall k | 0 <= k < |out| ensures IsCodeCall(found[k]) && out[k] == CallChange(position, found[k]) {
        if k > 0 {
          assert found[k] == rest[k - 1] && out[k] == changes[k - 1];
        }
      }
    } else {
      assert [] + rest == rest && [] + changes == changes;
    }
  }

  /** The change a `Write` or `Edit` call makes from its own `arguments`. */
  function CallChange(position: Json, u: Json): CodeChange
    requires IsCodeCall(u)
  {
    ToolChange(position, CallTool(u).value, GetOr(u, "arguments", JNull))
  }

  lemma CallChangesCons(position: Json, calls: seq<Json>)
    requires |calls| > 0
    ensures CallChanges(position, calls) ==
      (if IsCodeCall(calls[0]) then [CallChange(position, calls[0])] else []) + CallChanges(position, calls[1..])
  {
  }

  function Rule2(i: nat, r: Json): seq<CodeChange> {
    CallWrites(JInt(i), EntriesOf(r, "tool_calls"))
  }

  /** `r.get('step_id', i)`. */
  function StepPosition(i: nat, r: Json): Json {
    GetOr(r, "step_id", JInt(i))
  }

  function Rule3(i: nat, r: Json): seq<CodeChange> {
    CallChanges(StepPosition(i, r), EntriesOf(r, "tool_calls"))
  }

  // ---------------------------------------------------------------------------
  // The whole scan
  // ---------------------------------------------------------------------------

  /** What record number `i` contributes, rule by rule. */
  function RecordChanges(i: nat, r: Json, format: Format): seq<CodeChange> {
    Rule1(i, r) + Rule2(i, r) + (if format == Trajectory then Rule3(i, r) else [])
  }

  /** What each record contributes in the given format, as a step of the scan. */
  function RecordStep(format: Format): (nat, Json) -> seq<CodeChange> {
    (i: nat, r: Json) => RecordChanges(i, r, format)
  }

  /** The `for i, r in enumerate(records, 1)` loop read front to back, over
      records numbered from `offset + 1`, each appending what `step` yields. */
  function Scan(offset: nat, records: seq<Json>, step: (nat, Json) -> seq<CodeChange>): seq<CodeChange>
    decreases |records|
  {
    if |records| == 0 then []
    else step(offset + 1, records[0]) + Scan(offset + 1, records[1..], step)
  }

  /** Scanning two runs of records one after the other is scanning the
      second run with its numbering continued. */
  lemma {:induction false} ScanConcat(offset: nat, a: seq<Json>, b: seq<Json>, step: (nat, Json) -> seq<CodeChange>)
    ensures Scan(offset, a + b, step) == Scan(offset, a, step) + Scan(offset + |a|, b, step)
    decreases |a|
  {
    if |a| == 0 {
      assert a + b == b;
    } else {
      var x := step(offset + 1, a[0]);
      assert (a + b)[0] == a[0] && (a + b)[1..] == a[1..] + b;
      assert Scan(offset, a + b, step) == x + Scan(offset + 1, a[1..] + b, step);
      ScanConcat(offset + 1, a[1..], b, step);
      var y := Scan(offset + 1, a[1..], step);
      var z := Scan(offset + |a|, b, step);
      assert offset + 1 + |a[1..]| == offset + |a|;
      ConcatAssoc(x, y, z);
    }
  }

  /** Scanning one record is that record's step. */
  lemma ScanSingle(offset: nat, r: Json, step: (nat, Json) -> seq<CodeChange>)
    ensures Scan(offset, [r], step) == step(offset + 1, r)
  {
    assert [r][1..] == [];
    assert step(offset + 1, r) + [] == step(offset + 1, r);
  }

  /** `code_changes` after the scan of `records` in the given format: each
      record appends its own changes to those of the records before it. */
  function ExtractAgentCode(records: seq<Json>, format: Format): seq<CodeChange>
    decreases |records|
  {
    if |records| == 0 then []
    else
      ExtractAgentCode(records[..|records| - 1], format)
      + RecordChanges(|records|, records[|records| - 1], format)
  }

  /** One more record at the end adds what the step yields for it, numbered
      after the others. */
  lemma ScanSnoc(init: seq<Json>, last: Json, step: (nat, Json) -> seq<CodeChange>)
    ensures Scan(0, init + [last], step) == Scan(0, init, step) + step(|init| + 1, last)
  {
    ScanConcatFromStart(init, [last], step);
    ScanSingle(|init|, last, step);
  }

  /** Appending each record's changes in turn is the front-to-back loop
      over all records. */
  lemma {:induction false} ExtractIsScan(records: seq<Json>, format: Format)
    ensures ExtractAgentCode(records, format) == Scan(0, records, RecordStep(format))
    decreases |records|
  {
    if |records| > 0 {
      var init := records[..|records| - 1];
      var last := records[|records| - 1];
      assert records == init + [last];
      ExtractIsScan(init, format);
      ScanSnoc(init, last, RecordStep(format));
    }
  }

  // ---------------------------------------------------------------------------
  // Selections used by the properties
  // ---------------------------------------------------------------------------

  function Creates(cs: seq<CodeChange>): seq<CodeChange>
    decreases |cs|
  {
    if |cs| == 0 then [] else (if cs[0].tool == Write then [cs[0]] else []) + Creates(cs[1..])
  }

  function Modifies(cs: seq<CodeChange>): seq<CodeChange>
    decreases |cs|
  {
    if |cs| == 0 then [] else (if cs[0].tool == Edit then [cs[0]] else []) + Modifies(cs[1..])
  }

  /** The same changes, found at another position. */
  function AtPosition(cs: seq<CodeChange>, position: Json): (r: seq<CodeChange>)
    ensures |r| == |cs|
    ensures forall k :: 0 <= k < |cs| ==> r[k] == cs[k].(position := position)
  {
    seq(|cs|, k requires 0 <= k < |cs| => cs[k].(position := position))
  }

  lemma {:induction false} CreatesAppend(a: seq<CodeChange>, b: seq<CodeChange>)
    ensures Creates(a + b) == Creates(a) + Creates(b)
    decreases |a|
  {
    if |a| == 0 {
      assert a + b == b;
    } else {
      var x := if a[0].tool == Write then [a[0]] else [];
      assert Creates(a + b) == x + Creates(a[1..] + b) by {
        assert (a + b)[0] == a[0] && (a + b)[1..] == a[1..] + b;
      }
      CreatesAppend(a[1..], b);
      ConcatAssoc(x, Creates(a[1..]), Creates(b));
    }
  }

  lemma {:induction false} ModifiesAppend(a: seq<CodeChange>, b: seq<CodeChange>)
    ensures Modifies(a + b) == Modifies(a) + Modifies(b)
    decreases |a|
  {
    if |a| == 0 {
      assert a + b == b;
    } else {
      var x := if a[0].tool == Edit then [a[0]] else [];
      assert Modifies(a + b) == x + Modifies(a[1..] + b) by {
        assert (a + b)[0] == a[0] && (a + b)[1..] == a[1..] + b;
      }
      ModifiesAppend(a[1..], b);
      ConcatAssoc(x, Modifies(a[1..]), Modifies(b));
    }
  }

  // ---------------------------------------------------------------------------
  // Properties of the rules
  // ---------------------------------------------------------------------------

  /** Rule 2 emits only creates, each at the given position, one per `Write` call. */
  lemma {:induction false} CallWritesAreCreates(position: Json, calls: seq<Json>)
    ensures forall k :: 0 <= k < |CallWrites(position, calls)| ==>
      CallWrites(position, calls)[k].tool == Write && CallWrites(position, calls)[k].action == Create &&
      CallWrites(position, calls)[k].position == position
    ensures Creates(CallWrites(position, calls)) == CallWrites(position, calls)
    ensures Modifies(CallWrites(position, calls)) == []
    decreases |calls|
  {
    if |calls| > 0 {
      CallWritesAreCreates(position, calls[1..]);
      var head := if IsWriteCall(calls[0])
        then [ToolChange(position, Write, GetOr(calls[0], "arguments", JNull))] else [];
      CreatesAppend(head, CallWrites(position, calls[1..]));
      ModifiesAppend(head, CallWrites(position, calls[1..]));
    }
  }

  /** Rule 3's creates are exactly rule 2's changes for the same calls. */
  lemma {:induction false} CallChangesCreatesAreCallWrites(position: Json, calls: seq<Json>)
    ensures Creates(CallChanges(position, calls)) == CallWrites(position, calls)
    decreases |calls|
  {
    if |calls| > 0 {
      CallChangesCreatesAreCallWrites(position, calls[1..]);
      var head := match CallTool(calls[0])
        case Some(t) => [ToolChange(position, t, GetOr(calls[0], "arguments", JNull))]
        case None => [];
      CreatesAppend(head, CallChanges(position, calls[1..]));
    }
  }

  /** Moving rule 2 to another position changes the positions and nothing else. */
  lemma CallWritesReposition(p: Json, q: Json, calls: seq<Json>)
    ensures CallWrites(q, calls) == AtPosition(CallWrites(p, calls), q)
  {
    CallWritesEntries(p, calls);
    CallWritesEntries(q, calls);
    var moved := AtPosition(CallWrites(p, calls), q);
    forall k | 0 <= k < |moved| ensures moved[k] == CallWrites(q, calls)[k] {
      var args := GetOr(Filter(calls, IsWriteCall)[k], "arguments", JNull);
      assert ToolChange(q, Write, args) == ToolChange(p, Write, args).(position := q);
    }
  }

  /** The number of calls whose `function_name` names tool `t`. */
  function CountCalls(calls: seq<Json>, t: Tool): nat
    decreases |calls|
  {
    if |calls| == 0 then 0 else (if CallTool(calls[0]) == Some(t) then 1 else 0) + CountCalls(calls[1..], t)
  }

  /** Rule 3 emits one `create` per `Write` call and one `modify` per `Edit`
      call, and nothing else. */
  lemma {:induction false} CallChangesCounts(position: Json, calls: seq<Json>)
    ensures |Creates(CallChanges(position, calls))| == CountCalls(calls, Write)
    ensures |Modifies(CallChanges(position, calls))| == CountCalls(calls, Edit)
    ensures |CallChanges(position, calls)| == CountCalls(calls, Write) + CountCalls(calls, Edit)
    decreases |calls|
  {
    if |calls| > 0 {
      CallChangesCounts(position, calls[1..]);
      var head := match CallTool(calls[0])
        case Some(t) => [ToolChange(position, t, GetOr(calls[0], "arguments", JNull))]
        case None => [];
      CreatesAppend(head, CallChanges(position, calls[1..]));
      ModifiesAppend(head, CallChanges(position, calls[1..]));
    }
  }

  /** In trajectory format a record's `Write` calls appear twice: rule 3's
      creates are rule 2's changes again, moved to the step position (the
      record number when `step_id` is absent). Its `Edit` calls appear once. */
  lemma TrajectoryWritesTwice(i: nat, r: Json)
    ensures Creates(Rule3(i, r)) == AtPosition(Rule2(i, r), StepPosition(i, r))
    ensures Get(r, "step_id").None? ==> Creates(Rule3(i, r)) == Rule2(i, r)
    ensures |Creates(RecordChanges(i, r, Trajectory))| ==
      |Creates(Rule1(i, r))| + 2 * CountCalls(EntriesOf(r, "tool_calls"), Write)
    ensures |Modifies(RecordChanges(i, r, Trajectory))| ==
      |Modifies(Rule1(i, r))| + CountCalls(EntriesOf(r, "tool_calls"), Edit)
  {
    var calls := EntriesOf(r, "tool_calls");
    var pos := StepPosition(i, r);
    CallChangesCreatesAreCallWrites(pos, calls);
    CallWritesReposition(JInt(i), pos, calls);
    if Get(r, "step_id").None? {
      CallWritesAreCreates(JInt(i), calls);
      assert AtPosition(Rule2(i, r), JInt(i)) == Rule2(i, r);
    }
    CallWritesAreCreates(JInt(i), calls);
    CallChangesCounts(pos, calls);
    CallChangesCounts(JInt(i), calls);
    CallChangesCreatesAreCallWrites(JInt(i), calls);
    CreatesAppend(Rule1(i, r), Rule2(i, r));
    CreatesAppend(Rule1(i, r) + Rule2(i, r), Rule3(i, r));
    ModifiesAppend(Rule1(i, r), Rule2(i, r));
    ModifiesAppend(Rule1(i, r) + Rule2(i, r), Rule3(i, r));
  }

  /** In line-delimited format `tool_calls` yields one create per `Write`
      call, at the record number, and its `Edit` calls yield nothing. */
  lemma LineFormatIgnoresCallEdits(i: nat, r: Json)
    ensures RecordChanges(i, r, Jsonl) == Rule1(i, r) + Rule2(i, r)
    ensures |Rule2(i, r)| == CountCalls(EntriesOf(r, "tool_calls"), Write)
    ensures forall k :: 0 <= k < |Rule2(i, r)| ==>
      Rule2(i, r)[k].tool == Write && Rule2(i, r)[k].position == JInt(i)
    ensures Modifies(RecordChanges(i, r, Jsonl)) == Modifies(Rule1(i, r))
  {
    var calls := EntriesOf(r, "tool_calls");
    CallWritesAreCreates(JInt(i), calls);
    CallChangesCounts(JInt(i), calls);
    CallChangesCreatesAreCallWrites(JInt(i), calls);
    assert RecordChanges(i, r, Jsonl) == Rule1(i, r) + Rule2(i, r) + [];
    ModifiesAppend(Rule1(i, r), Rule2(i, r));
  }

  /** A line-delimited record without `Write` calls creates one file per
      `Write` tool use in its message content. */
  lemma LineCreatesWithoutCalls(i: nat, r: Json)
    requires Rule2(i, r) == []
    ensures |Creates(RecordChanges(i, r, Jsonl))| == CountToolUses(AssistantContent(r), "Write")
  {
    assert RecordChanges(i, r, Jsonl) == Rule1(i, r) + [] + [];
    assert Rule1(i, r) + [] + [] == Rule1(i, r);
    ContentChangesCounts(i, AssistantContent(r));
  }

  /** A record that is not an `assistant` contributes nothing through its message content. */
  lemma NonAssistantHasNoContentChanges(i: nat, r: Json)
    requires !FieldIs(r, "type", "assistant")
    ensures Rule1(i, r) == []
  {
  }

  /** The number of `tool_use` entries whose `name` is `name`. */
  function CountToolUses(entries: seq<Json>, name: string): nat
    decreases |entries|
  {
    if |entries| == 0 then 0
    else
      (if FieldIs(entries[0], "type", "tool_use") && FieldIs(entries[0], "name", name) then 1 else 0)
      + CountToolUses(entries[1..], name)
  }

  /** Rule 1 emits one `create` per `Write` tool use and one `modify` per
      `Edit` tool use. */
  lemma {:induction false} ContentChangesCounts(i: nat, entries: seq<Json>)
    ensures |Creates(ContentChanges(i, entries))| == CountToolUses(entries, "Write")
    ensures |Modifies(ContentChanges(i, entries))| == CountToolUses(entries, "Edit")
    ensures |ContentChanges(i, entries)| == CountToolUses(entries, "Write") + CountToolUses(entries, "Edit")
    ensures forall k :: 0 <= k < |ContentChanges(i, entries)| ==>
      ContentChanges(i, entries)[k].position == JInt(i) && Tagged(ContentChanges(i, entries)[k])
    decreases |entries|
  {
    if |entries| > 0 {
      ContentChangesCounts(i, entries[1..]);
      var head := match ContentEntryChange(i, entries[0]) case Some(c) => [c] case None => [];
      var tail := ContentChanges(i, entries[1..]);
      assert ContentChanges(i, entries) == head + tail;
      CreatesAppend(head, tail);
      ModifiesAppend(head, tail);
      assert "Write" != "Edit";
    }
  }

  /** An assistant record whose only content entry is a `Write` of `a.py`
      yields exactly one create of `a.py` with its content. */
  lemma SingleWriteExample(i: nat)
    ensures
      var input := JObject([("file_path", JString("a.py")), ("content", JString("print(1)"))]);
      var entry := JObject([("type", JString("tool_use")), ("name", JString("Write")), ("input", input)]);
      var r := JObject([("type", JString("assistant")), ("message", JObject([("content", JArray([entry]))]))]);
      ExtractAgentCode([r], Jsonl) == [CodeChange(JInt(1), Write, "a.py", Create, "print(1)")]
  {
    var input := JObject([("file_path", JString("a.py")), ("content", JString("print(1)"))]);
    var entry := JObject([("type", JString("tool_use")), ("name", JString("Write")), ("input", input)]);
    var r := JObject([("type", JString("assistant")), ("message", JObject([("content", JArray([entry]))]))]);
    WriteEntryExample(input, entry);
    AssistantRecordExample(entry, r);
    assert [r][..0] == [];
  }

  /** The `Write` entry of the example becomes one create of `a.py`. */
  lemma WriteEntryExample(input: Json, entry: Json)
    requires input == JObject([("file_path", JString("a.py")), ("content", JString("print(1)"))])
    requires entry == JObject([("type", JString("tool_use")), ("name", JString("Write")), ("input", input)])
    ensures ContentChanges(1, [entry]) == [CodeChange(JInt(1), Write, "a.py", Create, "print(1)")]
  {
    assert entry.members[..2] == [("type", JString("tool_use")), ("name", JString("Write"))];
    assert entry.members[..2][..1] == [("type", JString("tool_use"))];
    assert "input" != "type" && "input" != "name" && "name" != "type" by {
      assert "input"[0] != "type"[0] && "input"[0] != "name"[0] && "name"[0] != "type"[0];
    }
    assert Lookup(entry.members[..2], "type") == Some(JString("tool_use"));
    assert Lookup(entry.members, "type") == Some(JString("tool_use"));
    assert Lookup(entry.members, "name") == Some(JString("Write"));
    assert Get(entry, "type") == Some(JString("tool_use"));
    assert Get(entry, "name") == Some(JString("Write"));
    assert Get(entry, "input") == Some(input);
    assert Get(input, "file_path") == Some(JString("a.py"));
    assert Get(input, "content") == Some(JString("print(1)"));
    assert ContentChanges(1, [entry]) == [CodeChange(JInt(1), Write, "a.py", Create, "print(1)")] + ContentChanges(1, []);
  }

  /** The example's assistant record carries exactly its one content entry
      and no `tool_calls`. */
  lemma AssistantRecordExample(entry: Json, r: Json)
    requires r == JObject([("type", JString("assistant")), ("message", JObject([("content", JArray([entry]))]))])
    ensures AssistantContent(r) == [entry] && Get(r, "tool_calls") == None && Get(r, "type") == Some(JString("assistant"))
  {
    var msg := JObject([("content", JArray([entry]))]);
    assert r.members[..1] == [("type", JString("assistant"))];
    assert "message" != "type" by { assert "message"[0] != "type"[0]; }
    assert Lookup(r.members, "type") == Some(JString("assistant"));
    assert Get(r, "type") == Some(JString("assistant"));
    assert Get(r, "message") == Some(msg);
    assert Get(msg, "content") == Some(JArray([entry]));
    assert "tool_calls" != "type" && "tool_calls" != "message" by {
      assert "tool_calls"[1] != "type"[1] && "tool_calls"[0] != "message"[0];
    }
    assert Lookup(r.members[..1], "tool_calls") == None;
    assert Lookup(r.members, "tool_calls") == None;
  }

  // ---------------------------------------------------------------------------
  // Properties of the whole scan
  // ---------------------------------------------------------------------------

  /** The changes of a concatenation are those of the first part followed by
      those of the second part, its records numbered after the first part's. */
  lemma ExtractConcat(a: seq<Json>, b: seq<Json>, format: Format)
    ensures ExtractAgentCode(a + b, format) == ExtractAgentCode(a, format) + Scan(|a|, b, RecordStep(format))
  {
    ExtractIsScan(a + b, format);
    ExtractIsScan(a, format);
    ScanConcatFromStart(a, b, RecordStep(format));
    ChainConcat(ExtractAgentCode(a + b, format), Scan(0, a + b, RecordStep(format)),
      ExtractAgentCode(a, format), Scan(0, a, RecordStep(format)), Scan(|a|, b, RecordStep(format)));
  }

  lemma ScanConcatFromStart(a: seq<Json>, b: seq<Json>, step: (nat, Json) -> seq<CodeChange>)
    ensures Scan(0, a + b, step) == Scan(0, a, step) + Scan(|a|, b, step)
  {
    ScanConcat(0, a, b, step);
  }

  lemma ChainConcat<T>(whole: seq<T>, scanWhole: seq<T>, front: seq<T>, scanFront: seq<T>, back: seq<T>)
    requires whole == scanWhole && front == scanFront && scanWhole == scanFront + back
    ensures whole == front + back
  {
  }

  /** Scanning a prefix of the records gives a prefix of the changes. */
  lemma ExtractPrefix(records: seq<Json>, n: nat, format: Format)
    requires n <= |records|
    ensures ExtractAgentCode(records[..n], format) <= ExtractAgentCode(records, format)
  {
    assert records == records[..n] + records[n..];
    ExtractConcat(records[..n], records[n..], format);
  }

  /** The number of changes is the sum of what each record contributes. */
  function TotalContributions(records: seq<Json>, format: Format): nat
    decreases |records|
  {
    if |records| == 0 then 0
    else TotalContributions(records[..|records| - 1], format) + |RecordChanges(|records|, records[|records| - 1], format)|
  }

  /** Every change is tagged consistently, and in line-delimited format every
      change sits at the number of the record it came from, so positions
      never decrease along the scan. */
  lemma {:induction false} ExtractWellFormed(records: seq<Json>, format: Format)
    ensures forall k :: 0 <= k < |ExtractAgentCode(records, format)| ==> Tagged(ExtractAgentCode(records, format)[k])
    ensures |ExtractAgentCode(records, format)| == TotalContributions(records, format)
    ensures format == Jsonl ==> forall k :: 0 <= k < |ExtractAgentCode(records, format)| ==>
      ExtractAgentCode(records, format)[k].position.JInt? &&
      1 <= ExtractAgentCode(records, format)[k].position.n <= |records|
    ensures format == Jsonl ==> forall k, m :: 0 <= k < m < |ExtractAgentCode(records, format)| ==>
      ExtractAgentCode(records, format)[k].position.n <= ExtractAgentCode(records, format)[m].position.n
    decreases |records|
  {
    if |records| > 0 {
      var init := records[..|records| - 1];
      var i := |records|;
      var r := records[i - 1];
      ExtractWellFormed(init, format);
      RecordChangesWellFormed(i, r, format);
      var prev := ExtractAgentCode(init, format);
      var here := RecordChanges(i, r, format);
      assert ExtractAgentCode(records, format) == prev + here;
    }
  }

  lemma RecordChangesWellFormed(i: nat, r: Json, format: Format)
    ensures forall k :: 0 <= k < |RecordChanges(i, r, format)| ==> Tagged(RecordChanges(i, r, format)[k])
    ensures format == Jsonl ==> forall k :: 0 <= k < |RecordChanges(i, r, format)| ==>
      RecordChanges(i, r, format)[k].position == JInt(i)
  {
    var calls := EntriesOf(r, "tool_calls");
    ContentChangesCounts(i, AssistantContent(r));
    CallWritesAreCreates(JInt(i), calls);
    CallChangesTagged(StepPosition(i, r), calls);
  }

  lemma {:induction false} CallChangesTagged(position: Json, calls: seq<Json>)
    ensures forall k :: 0 <= k < |CallChanges(position, calls)| ==>
      Tagged(CallChanges(position, calls)[k]) && CallChanges(position, calls)[k].position == position
    decreases |calls|
  {
    if |calls| > 0 {
      CallChangesTagged(position, calls[1..]);
    }
  }
}

=== FILE: histogram.dfy ===
/**
  Frequency histograms as the viewer builds them: a Python dict from key to
  count, filled by `d[k] = d.get(k, 0) + 1`, which keeps keys in order of
  first appearance; and the descending-by-count order in which it prints them.
 */
module Histogram {
  import opened JsonValue

  /** One histogram entry: a key and how often it was seen. */
  datatype Bucket = Bucket(key: Json, count: nat)

  function KeySet(h: seq<Bucket>): set<Json> {
    set i | 0 <= i < |h| :: h[i].key
  }

  /** A dict never holds a key twice. */
  predicate DistinctKeys(h: seq<Bucket>) {
    forall i, j :: 0 <= i < j < |h| ==> h[i].key != h[j].key
  }

  /** The count a histogram reports for `k`; 0 when `k` is not a key. */
  function CountOf(h: seq<Bucket>, k: Json): nat {
    if |h| == 0 then 0 else if h[0].key == k then h[0].count else CountOf(h[1..], k)
  }

  /** Distinct keys: one key per bucket. */
  lemma {:induction false} DistinctKeysCardinality(h: seq<Bucket>)
    requires DistinctKeys(h)
    ensures |KeySet(h)| == |h|
    decreases |h|
  {
    if |h| > 0 {
      DistinctKeysCardinality(h[1..]);
      KeySetCons(h[0], h[1..]);
      assert h == [h[0]] + h[1..];
      assert h[0].key !in KeySet(h[1..]);
    }
  }

  /** The sum of all counts. */
  function Total(h: seq<Bucket>): nat {
    if |h| == 0 then 0 else h[0].count + Total(h[1..])
  }

  lemma KeySetCons(b: Bucket, h: seq<Bucket>)
    ensures KeySet([b] + h) == {b.key} + KeySet(h)
  {
    var s := [b] + h;
    forall x | x in KeySet(s) ensures x in {b.key} + KeySet(h) {
      var i :| 0 <= i < |s| && s[i].key == x;
      if i > 0 { assert s[i] == h[i - 1]; }
    }
    forall x | x in KeySet(h) ensures x in KeySet(s) {
      var i :| 0 <= i < |h| && h[i].key == x;
      assert s[i + 1] == h[i];
    }
    assert s[0] == b;
  }

  lemma DistinctKeysCons(b: Bucket, h: seq<Bucket>)
    ensures DistinctKeys([b] + h) <==> b.key !in KeySet(h) && DistinctKeys(h)
  {
    var t := [b] + h;
    assert forall i :: 0 <= i < |h| ==> t[i + 1] == h[i];
    if DistinctKeys(t) {
      forall i | 0 <= i < |h| ensures h[i].key != b.key {
        assert t[0].key != t[i + 1].key;
      }
    }
  }

  /** `d[k] = d.get(k, 0) + 1`: an existing key keeps its place, a new key
      is appended with count 1, and no other key is added. */
  function Bump(h: seq<Bucket>, k: Json): (r: seq<Bucket>)
    requires DistinctKeys(h)
    ensures DistinctKeys(r)
    ensures KeySet(r) == KeySet(h) + {k}
    ensures |h| <= |r| && forall i :: 0 <= i < |h| ==> r[i].key == h[i].key
    ensures k in KeySet(h) ==> |r| == |h|
    ensures k !in KeySet(h) ==> r == h + [Bucket(k, 1)]
    decreases |h|
  {
    if |h| == 0 then
      KeySetCons(Bucket(k, 1), []);
      [Bucket(k, 1)]
    else if h[0].key == k then
      var r := [Bucket(k, h[0].count + 1)] + h[1..];
      BumpHit(h, k, r);
      r
    else
      var rest := Bump(h[1..], k);
      var r := [h[0]] + rest;
      BumpMiss(h, k, rest, r);
      r
  }

  /** What one `Bump` step promises: `r` is `h` with `k` counted once more. */
  predicate BumpsTo(h: seq<Bucket>, k: Json, r: seq<Bucket>) {
    && DistinctKeys(r)
    && KeySet(r) == KeySet(h) + {k}
    && |h| <= |r| && (forall i :: 0 <= i < |h| ==> r[i].key == h[i].key)
    && (k in KeySet(h) ==> |r| == |h|)
    && (k !in KeySet(h) ==> r == h + [Bucket(k, 1)])
  }

  /** The key is found in the first bucket, whose count goes up. */
  lemma BumpHit(h: seq<Bucket>, k: Json, r: seq<Bucket>)
    requires DistinctKeys(h) && |h| > 0 && h[0].key == k
    requires r == [Bucket(k, h[0].count + 1)] + h[1..]
    ensures BumpsTo(h, k, r)
  {
    var tail := h[1..];
    assert h == [h[0]] + tail;
    DistinctKeysCons(h[0], tail);
    KeySetCons(h[0], tail);
    DistinctKeysCons(r[0], tail);
    KeySetCons(r[0], tail);
    assert forall i :: 1 <= i < |r| ==> r[i] == h[i];
  }

  /** The key is not in the first bucket: it is bumped in the rest. */
  lemma BumpMiss(h: seq<Bucket>, k: Json, rest: seq<Bucket>, r: seq<Bucket>)
    requires DistinctKeys(h) && |h| > 0 && h[0].key != k
    requires BumpsTo(h[1..], k, rest)
    requires r == [h[0]] + rest
    ensures BumpsTo(h, k, r)
  {
    var head := h[0];
    var tail := h[1..];
    assert h == [head] + tail;
    DistinctKeysCons(head, tail);
    KeySetCons(head, tail);
    DistinctKeysCons(head, rest);
    KeySetCons(head, rest);
    assert forall i :: 1 <= i < |h| ==> r[i] == rest[i - 1] && h[i] == tail[i - 1];
    if k !in KeySet(h) {
      ConcatAssoc([head], tail, [Bucket(k, 1)]);
    }
  }

  lemma {:induction false} BumpCount(h: seq<Bucket>, k: Json, x: Json)
    requires DistinctKeys(h)
    ensures CountOf(Bump(h, k), x) == CountOf(h, x) + (if x == k then 1 else 0)
    decreases |h|
  {
    if |h| > 0 && h[0].key != k {
      var r := Bump(h, k);
      assert r == [h[0]] + Bump(h[1..], k);
      assert r[1..] == Bump(h[1..], k);
      BumpCount(h[1..], k, x);
    }
  }

  lemma {:induction false} BumpTotal(h: seq<Bucket>, k: Json)
    requires DistinctKeys(h)
    ensures Total(Bump(h, k)) == Total(h) + 1
    decreases |h|
  {
    if |h| == 0 {
      assert Total([Bucket(k, 1)]) == 1 + Total([]);
    } else if h[0].key == k {
      var r := Bump(h, k);
      assert r[1..] == h[1..];
    } else {
      var r := Bump(h, k);
      assert r == [h[0]] + Bump(h[1..], k);
      assert r[1..] == Bump(h[1..], k);
      BumpTotal(h[1..], k);
    }
  }

  /** The histogram of `keys`, filled in order. */
  function Tally(keys: seq<Json>): (h: seq<Bucket>)
    ensures DistinctKeys(h)
    decreases |keys|
  {
    if |keys| == 0 then []
    else
      var init := keys[..|keys| - 1];
      SplitLast(keys);
      Bump(Tally(init), keys[|keys| - 1])
  }

  /** The histogram's keys are exactly the distinct tallied keys. */
  lemma {:induction false} TallyKeys(keys: seq<Json>)
    ensures KeySet(Tally(keys)) == set x | x in keys
    decreases |keys|
  {
    if |keys| > 0 {
      var init := keys[..|keys| - 1];
      var last := keys[|keys| - 1];
      SplitLast(keys);
      TallyKeys(init);
      assert Tally(keys) == Bump(Tally(init), last);
    }
  }

  /** Every key's reported count is the number of times it occurs. */
  lemma {:induction false} TallyCount(keys: seq<Json>, x: Json)
    ensures CountOf(Tally(keys), x) == multiset(keys)[x]
    decreases |keys|
  {
    if |keys| > 0 {
      var init := keys[..|keys| - 1];
      var last := keys[|keys| - 1];
      assert multiset(keys) == multiset(init) + multiset{last} by {
        SplitLast(keys);
      }
      TallyCount(init, x);
      var h0 := Tally(init);
      assert Tally(keys) == Bump(h0, last);
      BumpCount(h0, last, x);
    }
  }

  /** The counts sum to the number of keys tallied. */
  lemma {:induction false} TallyTotal(keys: seq<Json>)
    ensures Total(Tally(keys)) == |keys|
    decreases |keys|
  {
    if |keys| > 0 {
      var init := keys[..|keys| - 1];
      var last := keys[|keys| - 1];
      TallyTotal(init);
      var h0 := Tally(init);
      assert Tally(keys) == Bump(h0, last);
      BumpTotal(h0, last);
    }
  }

  /** Keys appear in order of first occurrence: for two listed keys, the
      earlier one occurs in `keys` before the later one first does. */
  predicate FirstOccursBefore(keys: seq<Json>, a: Json, b: Json) {
    exists p :: 0 <= p < |keys| && keys[p] == a && forall q :: 0 <= q <= p ==> keys[q] != b
  }

  lemma FirstOccursBeforeExtend(keys: seq<Json>, last: Json, a: Json, b: Json)
    requires FirstOccursBefore(keys, a, b)
    ensures FirstOccursBefore(keys + [last], a, b)
  {
    var p :| 0 <= p < |keys| && keys[p] == a && forall q :: 0 <= q <= p ==> keys[q] != b;
    var ks := keys + [last];
    assert ks[p] == a;
    assert forall q :: 0 <= q <= p ==> ks[q] == keys[q];
  }

  lemma OldKeyBeforeNewKey(keys: seq<Json>, last: Json, a: Json)
    requires a in keys && last !in keys
    ensures FirstOccursBefore(keys + [last], a, last)
  {
    var p :| 0 <= p < |keys| && keys[p] == a;
    var ks := keys + [last];
    assert ks[p] == a;
    assert forall q :: 0 <= q <= p ==> ks[q] == keys[q];
  }

  lemma {:induction false} TallyFirstAppearanceOrder(keys: seq<Json>, i: nat, j: nat)
    requires i < j < |Tally(keys)|
    ensures FirstOccursBefore(keys, Tally(keys)[i].key, Tally(keys)[j].key)
    decreases |keys|
  {
    var init := keys[..|keys| - 1];
    var last := keys[|keys| - 1];
    var h0 := Tally(init);
    assert Tally(keys) == Bump(h0, last);
    TallyKeys(init);
    if j < |h0| {
      TallyFirstAppearanceOrder(init, i, j);
    }
    SplitLast(keys);
    OrderStep(init, last, h0, Tally(keys), i, j);
  }

  /** One tally step keeps the first-appearance order: old keys keep their
      places, and a new key goes last. */
  lemma OrderStep(init: seq<Json>, last: Json, h0: seq<Bucket>, h: seq<Bucket>, i: nat, j: nat)
    requires i < j < |h|
    requires |h0| <= |h| && forall k :: 0 <= k < |h0| ==> h[k].key == h0[k].key
    requires last in KeySet(h0) ==> |h| == |h0|
    requires last !in KeySet(h0) ==> h == h0 + [Bucket(last, 1)]
    requires KeySet(h0) == set x | x in init
    requires j < |h0| ==> FirstOccursBefore(init, h0[i].key, h0[j].key)
    ensures FirstOccursBefore(init + [last], h[i].key, h[j].key)
  {
    if j < |h0| {
      FirstOccursBeforeExtend(init, last, h0[i].key, h0[j].key);
    } else {
      assert h[i] == h0[i] && h[j].key == last;
      assert h0[i].key in KeySet(h0);
      OldKeyBeforeNewKey(init, last, h0[i].key);
    }
  }

  // ---------------------------------------------------------------------------
  // Printing order: `sorted(d.items(), key=lambda x: -x[1])`
  // ---------------------------------------------------------------------------

  predicate SortedByCountDesc(h: seq<Bucket>) {
    forall i, j :: 0 <= i < j < |h| ==> h[i].count >= h[j].count
  }

  lemma SortedCons(x: Bucket, t: seq<Bucket>)
    ensures SortedByCountDesc([x] + t) <==>
      (forall i :: 0 <= i < |t| ==> t[i].count <= x.count) && SortedByCountDesc(t)
  {
    var s := [x] + t;
    assert forall i :: 0 <= i < |t| ==> s[i + 1] == t[i];
    if SortedByCountDesc(s) {
      forall i | 0 <= i < |t| ensures t[i].count <= x.count {
        assert s[0].count >= s[i + 1].count;
      }
    }
  }

  /** A bound on every count survives a rearrangement that adds `b`. */
  lemma CountsAtMost(r: seq<Bucket>, s: seq<Bucket>, b: Bucket, m: nat)
    requires multiset(r) == multiset(s) + multiset{b}
    requires forall i :: 0 <= i < |s| ==> s[i].count <= m
    requires b.count <= m
    ensures forall i :: 0 <= i < |r| ==> r[i].count <= m
  {
    forall i | 0 <= i < |r| ensures r[i].count <= m {
      assert r[i] in multiset(r);
      if r[i] != b {
        assert r[i] in multiset(s);
        var j :| 0 <= j < |s| && s[j] == r[i];
      }
    }
  }

  /** Places `b` before the first bucket whose count is not larger, so
      that among equal counts the earlier bucket stays first. */
  function Insert(b: Bucket, s: seq<Bucket>): (r: seq<Bucket>)
    requires SortedByCountDesc(s)
    ensures SortedByCountDesc(r)
    ensures multiset(r) == multiset(s) + multiset{b}
  {
    if |s| == 0 then [b]
    else
      assert s == [s[0]] + s[1..];
      SortedCons(s[0], s[1..]);
      if b.count >= s[0].count then
        SortedCons(b, s);
        [b] + s
      else
        var rest := Insert(b, s[1..]);
        CountsAtMost(rest, s[1..], b, s[0].count);
        SortedCons(s[0], rest);
        [s[0]] + rest
  }

  /** The order in which a histogram is printed: by descending count. */
  function SortByCount(h: seq<Bucket>): (r: seq<Bucket>)
    ensures SortedByCountDesc(r)
    ensures multiset(r) == multiset(h)
  {
    if |h| == 0 then []
    else
      assert h == [h[0]] + h[1..];
      Insert(h[0], SortByCount(h[1..]))
  }

  /** The buckets of `h` whose count is `c`, in order. */
  function WithCount(h: seq<Bucket>, c: nat): seq<Bucket>
    decreases |h|
  {
    if |h| == 0 then [] else (if h[0].count == c then [h[0]] else []) + WithCount(h[1..], c)
  }

  lemma WithCountCons(b: Bucket, s: seq<Bucket>, c: nat)
    ensures WithCount([b] + s, c) == (if b.count == c then [b] else []) + WithCount(s, c)
  {
    assert ([b] + s)[1..] == s;
  }

  /** Inserting `b` puts it ahead of every bucket with the same count. */
  lemma {:induction false} InsertWithCount(b: Bucket, s: seq<Bucket>, c: nat)
    requires SortedByCountDesc(s)
    ensures WithCount(Insert(b, s), c) == (if b.count == c then [b] else []) + WithCount(s, c)
    decreases |s|
  {
    if |s| == 0 {
      WithCountCons(b, s, c);
    } else if b.count >= s[0].count {
      WithCountCons(b, s, c);
    } else {
      var rest := Insert(b, s[1..]);
      InsertWithCount(b, s[1..], c);
      WithCountCons(s[0], rest, c);
      assert s == [s[0]] + s[1..];
      WithCountCons(s[0], s[1..], c);
    }
  }

  /** The sort is stable, as Python's `sorted` is: for every count, the
      buckets with that count keep their dict order. */
  lemma {:induction false} SortByCountStable(h: seq<Bucket>)
    ensures forall c :: WithCount(SortByCount(h), c) == WithCount(h, c)
    decreases |h|
  {
    if |h| > 0 {
      SortByCountStable(h[1..]);
      assert h == [h[0]] + h[1..];
      forall c ensures WithCount(SortByCount(h), c) == WithCount(h, c) {
        InsertWithCount(h[0], SortByCount(h[1..]), c);
        WithCountCons(h[0], h[1..], c);
      }
    }
  }
}

=== FILE: json.dfy ===
/**
  Decoded JSON values and the loosely-typed accessors the viewer uses on them.

  The viewer never sees JSON text: every record arrives already decoded. Field
  access mirrors Python's `dict.get` on such values, with one deliberate
  difference: where Python would raise (calling `.get` on a value that is not
  an object, iterating `null`), the model reads the field as absent.
 */
module JsonValue {

  datatype Option<+T> = None | Some(value: T)

  /** A decoded JSON value; an object keeps its members in document order. */
  datatype Json =
    | JNull
    | JBool(b: bool)
    | JInt(n: int)
    | JString(s: string)
    | JArray(items: seq<Json>)
    | JObject(members: seq<(string, Json)>)

  /** The value bound to `key` in an object's members. When a key is repeated
      the last binding wins, as it does for Python's JSON decoder. */
  function Lookup(members: seq<(string, Json)>, key: string): Option<Json> {
    if |members| == 0 then None
    else if members[|members| - 1].0 == key then Some(members[|members| - 1].1)
    else Lookup(members[..|members| - 1], key)
  }

  /** A key is found exactly when some member binds it, and then the value
      found is that of its last binding. */
  lemma {:induction false} LookupFindsLastBinding(members: seq<(string, Json)>, key: string)
    ensures Lookup(members, key).None? <==> forall i :: 0 <= i < |members| ==> members[i].0 != key
    ensures Lookup(members, key).Some? ==>
      exists i :: 0 <= i < |members| && members[i] == (key, Lookup(members, key).value) &&
        forall j :: i < j < |members| ==> members[j].0 != key
    decreases |members|
  {
    if |members| > 0 && members[|members| - 1].0 != key {
      var init := members[..|members| - 1];
      LookupFindsLastBinding(init, key);
      assert forall i :: 0 <= i < |init| ==> init[i] == members[i];
    }
  }

  /** `v.get(key)`: a value that is not an object has no fields. */
  function Get(v: Json, key: string): (r: Option<Json>)
    ensures r.Some? ==> v.JObject?
  {
    if v.JObject? then Lookup(v.members, key) else None
  }

  /** `v.get(key) == s` for a string literal `s`. */
  predicate FieldIs(v: Json, key: string, s: string) {
    Get(v, key) == Some(JString(s))
  }

  /** `v.get(key, default)` where the caller uses the result as text: a value
      that is not a string is read as absent and gives the default. */
  function StringOr(v: Json, key: string, default: string): string {
    match Get(v, key)
    case Some(JString(s)) => s
    case _ => default
  }

  /** `v.get(key, default)` for an arbitrary JSON default. */
  function GetOr(v: Json, key: string, default: Json): Json {
    match Get(v, key)
    case Some(x) => x
    case None => default
  }

  /** The entries a `for` loop visits over `v.get(key, [])`: anything that is
      not an array contributes no entries. */
  function EntriesOf(v: Json, key: string): seq<Json> {
    match Get(v, key)
    case Some(JArray(items)) => items
    case _ => []
  }

  /** `v.get(key, default)` is the value of the key's last binding, and the
      default exactly when the key is unbound or `v` is not an object. A
      present `null` is returned as it is. */
  lemma GetOrLastBinding(v: Json, key: string, default: Json)
    ensures !v.JObject? ==> GetOr(v, key, default) == default
    ensures v.JObject? && (forall i :: 0 <= i < |v.members| ==> v.members[i].0 != key) ==>
      GetOr(v, key, default) == default
    ensures v.JObject? && (exists i :: 0 <= i < |v.members| && v.members[i].0 == key) ==>
      exists i :: 0 <= i < |v.members| && v.members[i] == (key, GetOr(v, key, default)) &&
        forall j :: i < j < |v.members| ==> v.members[j].0 != key
  {
    if v.JObject? {
      LookupFindsLastBinding(v.members, key);
    }
  }

  /** A loop over `v.get(key, [])` visits entries only when the key's last
      binding is an array, and then exactly that array's items. */
  lemma EntriesOfBinding(v: Json, key: string)
    ensures EntriesOf(v, key) != [] ==> v.JObject?
    ensures EntriesOf(v, key) != [] ==>
      exists i :: 0 <= i < |v.members| && v.members[i] == (key, JArray(EntriesOf(v, key))) &&
        forall j :: i < j < |v.members| ==> v.members[j].0 != key
    ensures v.JObject? ==>
      forall i ::
        (0 <= i < |v.members| && v.members[i].0 == key && v.members[i].1.JArray? &&
         forall j :: i < j < |v.members| ==> v.members[j].0 != key) ==>
        EntriesOf(v, key) == v.members[i].1.items
  {
    if v.JObject? {
      LookupFindsLastBinding(v.members, key);
    }
  }

  /** Python truthiness of a decoded JSON value. */
  predicate Truthy(v: Json) {
    match v
    case JNull => false
    case JBool(b) => b
    case JInt(n) => n != 0
    case JString(s) => |s| > 0
    case JArray(items) => |items| > 0
    case JObject(members) => |members| > 0
  }

  /** The falsy values are exactly `None`, `False`, `0`, and the empty
      string, list and dict. */
  lemma TruthyIffNotFalsy(v: Json)
    ensures Truthy(v) <==>
      !(v == JNull || v == JBool(false) || v == JInt(0) || v == JString("") || v == JArray([]) || v == JObject([]))
  {
  }

  /** The elements of `xs` that pass `p`, in order: what a loop with an
      `if p(x)` test around its body visits. */
  function Filter(xs: seq<Json>, p: Json -> bool): seq<Json>
    decreases |xs|
  {
    if |xs| == 0 then [] else (if p(xs[0]) then [xs[0]] else []) + Filter(xs[1..], p)
  }

  lemma ConcatAssoc<T>(x: seq<T>, y: seq<T>, z: seq<T>)
    ensures x + (y + z) == (x + y) + z
  {
  }

  /** A non-empty sequence is its front followed by its last element. */
  lemma SplitLast<T>(s: seq<T>)
    requires |s| > 0
    ensures s == s[..|s| - 1] + [s[|s| - 1]]
  {
  }

  /** The filter keeps exactly the elements that pass, and nothing else. */
  lemma {:induction false} FilterKeeps(xs: seq<Json>, p: Json -> bool)
    ensures |Filter(xs, p)| <= |xs|
    ensures forall k :: 0 <= k < |Filter(xs, p)| ==> p(Filter(xs, p)[k]) && Filter(xs, p)[k] in xs
    ensures forall x :: x in xs && p(x) ==> x in Filter(xs, p)
    decreases |xs|
  {
    if |xs| > 0 {
      FilterKeeps(xs[1..], p);
      assert xs == [xs[0]] + xs[1..];
    }
  }

  /** Filtering visits the elements in order and keeps each passing one once:
      the filter of `a + b` is the filter of `a` followed by the filter of
      `b`, and a single element is kept exactly when it passes. */
  lemma {:induction false} FilterConcat(a: seq<Json>, b: seq<Json>, p: Json -> bool)
    ensures Filter(a + b, p) == Filter(a, p) + Filter(b, p)
    decreases |a|
  {
    if |a| == 0 {
      assert a + b == b;
    } else {
      var h := if p(a[0]) then [a[0]] else [];
      assert (a + b)[0] == a[0] && (a + b)[1..] == a[1..] + b;
      assert Filter(a + b, p) == h + Filter(a[1..] + b, p);
      FilterConcat(a[1..], b, p);
      ConcatAssoc(h, Filter(a[1..], p), Filter(b, p));
    }
  }

  lemma FilterSingle(x: Json, p: Json -> bool)
    ensures Filter([x], p) == if p(x) then [x] else []
  {
    assert [x][1..] == [];
  }

  /** Python's `x[:n]` on a string or list value for `n >= 0`; any other
      value is read as the text default `""`. */
  function Snippet(v: Json, n: nat): (r: Json)
    ensures v.JString? ==> r.JString? && r.s <= v.s && |r.s| == if |v.s| < n then |v.s| else n
    ensures v.JArray? ==> r.JArray? && r.items <= v.items && |r.items| == if |v.items| < n then |v.items| else n
    ensures !v.JString? && !v.JArray? ==> r == JString("")
  {
    match v
    case JString(s) => JString(if |s| <= n then s else s[..n])
    case JArray(items) => JArray(if |items| <= n then items else items[..n])
    case _ => JString("")
  }
}

=== FILE: loader.dfy ===
/**
  Loading records, after the text has been decoded.

  Reading files and decoding JSON text are outside the model: the line loader
  takes the file's lines and a decoding oracle `parse` (None = the line is not
  valid JSON), and the format detector takes the outcome of the
  whole-document decoding attempt.
 */
module Loader {
  import opened JsonValue
  import Text

  /** The format tag `smart_load` returns. */
  datatype Format = Jsonl | Trajectory

  /** The line loader's result: the decoded records in file order, and the
      1-based physical line numbers it warned about. */
  datatype Loaded = Loaded(records: seq<Json>, warnings: seq<nat>)

  /** A line `line.strip()` empties, which the loader skips. */
  predicate Blank(line: string) {
    |Text.Strip(line)| == 0
  }

  /** Whether a line is one the loader warns about: not blank, and its stripped text does not decode. */
  predicate Malformed(line: string, parse: string -> Option<Json>) {
    !Blank(line) && parse(Text.Strip(line)).None?
  }

  function NonBlankCount(lines: seq<string>): nat {
    if |lines| == 0 then 0 else (if Blank(lines[0]) then 0 else 1) + NonBlankCount(lines[1..])
  }

  /** Reference reading of the records a file yields: the decoded values of
      its non-blank lines, skipping the lines that fail to decode. */
  function Decoded(lines: seq<string>, parse: string -> Option<Json>): seq<Json> {
    if |lines| == 0 then [] else LineRecord(lines[0], parse) + Decoded(lines[1..], parse)
  }

  /** The record one line yields: none when it is blank or does not decode. */
  function LineRecord(line: string, parse: string -> Option<Json>): seq<Json> {
    if Blank(line) then [] else
      match parse(Text.Strip(line)) case Some(v) => [v] case None => []
  }

  lemma {:induction false} NonBlankCountAppend(a: seq<string>, b: seq<string>)
    ensures NonBlankCount(a + b) == NonBlankCount(a) + NonBlankCount(b)
    decreases |a|
  {
    if |a| == 0 {
      assert a + b == b;
    } else {
      assert (a + b)[1..] == a[1..] + b;
      NonBlankCountAppend(a[1..], b);
    }
  }

  lemma {:induction false} DecodedAppend(a: seq<string>, b: seq<string>, parse: string -> Option<Json>)
    ensures Decoded(a + b, parse) == Decoded(a, parse) + Decoded(b, parse)
    decreases |a|
  {
    if |a| == 0 {
      assert a + b == b;
    } else {
      var x := LineRecord(a[0], parse);
      assert Decoded(a + b, parse) == x + Decoded(a[1..] + b, parse) by {
        assert (a + b)[1..] == a[1..] + b;
        assert (a + b)[0] == a[0];
      }
      DecodedAppend(a[1..], b, parse);
      ConcatAssoc(x, Decoded(a[1..], parse), Decoded(b, parse));
    }
  }

  /** `load_jsonl` over the file's lines, processed in order. */
  function LoadJsonl(lines: seq<string>, parse: string -> Option<Json>): Loaded
    decreases |lines|
  {
    if |lines| == 0 then Loaded([], [])
    else
      var prev := LoadJsonl(lines[..|lines| - 1], parse);
      var line := Text.Strip(lines[|lines| - 1]);
      if |line| == 0 then prev
      else
        match parse(line)
        case Some(v) => Loaded(prev.records + [v], prev.warnings)
        case None => Loaded(prev.records, prev.warnings + [|lines|])
  }

  /** What the last line adds to the loader's result: its decoded value, and
      one record or one warning when it is not blank. */
  lemma LoadJsonlLastLine(lines: seq<string>, parse: string -> Option<Json>)
    requires |lines| > 0
    ensures LoadJsonl(lines, parse).records ==
      LoadJsonl(lines[..|lines| - 1], parse).records + Decoded([lines[|lines| - 1]], parse)
    ensures |LoadJsonl(lines, parse).records| + |LoadJsonl(lines, parse).warnings| ==
      |LoadJsonl(lines[..|lines| - 1], parse).records| + |LoadJsonl(lines[..|lines| - 1], parse).warnings|
      + (if Blank(lines[|lines| - 1]) then 0 else 1)
  {
    var last := lines[|lines| - 1];
    var prev := LoadJsonl(lines[..|lines| - 1], parse);
    LastLineContribution(last, parse);
    if Blank(last) {
      assert prev.records + [] == prev.records;
    }
  }

  /** The records are the decoded non-blank lines in file order. */
  lemma {:induction false} LoadJsonlRecords(lines: seq<string>, parse: string -> Option<Json>)
    ensures LoadJsonl(lines, parse).records == Decoded(lines, parse)
    decreases |lines|
  {
    if |lines| > 0 {
      var init := lines[..|lines| - 1];
      var last := lines[|lines| - 1];
      LoadJsonlRecords(init, parse);
      LoadJsonlLastLine(lines, parse);
      SplitLast(lines);
      DecodedAppend(init, [last], parse);
    }
  }

  /** Every non-blank line yields either a record or a warning. */
  lemma {:induction false} LoadJsonlAccountsForLines(lines: seq<string>, parse: string -> Option<Json>)
    ensures |LoadJsonl(lines, parse).records| + |LoadJsonl(lines, parse).warnings| == NonBlankCount(lines)
    decreases |lines|
  {
    if |lines| > 0 {
      var init := lines[..|lines| - 1];
      var last := lines[|lines| - 1];
      LoadJsonlAccountsForLines(init, parse);
      LoadJsonlLastLine(lines, parse);
      NonBlankCountSnoc(lines);
    }
  }

  /** The last line adds one to the count when it is not blank. */
  lemma NonBlankCountSnoc(lines: seq<string>)
    requires |lines| > 0
    ensures NonBlankCount(lines) ==
      NonBlankCount(lines[..|lines| - 1]) + (if Blank(lines[|lines| - 1]) then 0 else 1)
  {
    var init := lines[..|lines| - 1];
    var last := lines[|lines| - 1];
    NonBlankCountAppend(init, [last]);
    assert init + [last] == lines;
    assert [last][1..] == [] && [last][0] == last;
  }

  /** What a single line contributes to the count and to the decoded records. */
  lemma LastLineContribution(last: string, parse: string -> Option<Json>)
    ensures Blank(last) ==> NonBlankCount([last]) == 0 && Decoded([last], parse) == []
    ensures !Blank(last) ==> NonBlankCount([last]) == 1
    ensures !Blank(last) ==>
      Decoded([last], parse) == (match parse(Text.Strip(last)) case Some(v) => [v] case None => [])
  {
    assert [last][1..] == [];
    assert [last][0] == last;
  }

  /** One step of the loader: the last line adds a warning exactly when it is malformed. */
  lemma LoadJsonlStep(lines: seq<string>, parse: string -> Option<Json>)
    requires |lines| > 0
    ensures var prev := LoadJsonl(lines[..|lines| - 1], parse).warnings;
      LoadJsonl(lines, parse).warnings == if Malformed(lines[|lines| - 1], parse) then prev + [|lines|] else prev
  {
  }

  /** The warnings name physical 1-based line numbers (blank lines count),
      in increasing order, and exactly the malformed lines. */
  predicate WarningsExact(lines: seq<string>, parse: string -> Option<Json>, w: seq<nat>) {
    && (forall k :: 0 <= k < |w| ==> 1 <= w[k] <= |lines|)
    && (forall k, m :: 0 <= k < m < |w| ==> w[k] < w[m])
    && (forall n :: 1 <= n <= |lines| ==> (n in w <==> Malformed(lines[n - 1], parse)))
  }

  /** Extending the file by a malformed line adds its line number to exact warnings. */
  lemma WarningsExactBad(lines: seq<string>, parse: string -> Option<Json>, w0: seq<nat>)
    requires |lines| > 0 && Malformed(lines[|lines| - 1], parse)
    requires WarningsExact(lines[..|lines| - 1], parse, w0)
    ensures WarningsExact(lines, parse, w0 + [|lines|])
  {
    var init := lines[..|lines| - 1];
    var w := w0 + [|lines|];
    forall k | 0 <= k < |w| ensures 1 <= w[k] <= |lines| {
      if k < |w0| { assert w[k] == w0[k]; }
    }
    forall k, m | 0 <= k < m < |w| ensures w[k] < w[m] {
      assert w[k] == w0[k];
      if m < |w0| { assert w[m] == w0[m]; }
    }
    forall n | 1 <= n <= |lines| ensures n in w <==> Malformed(lines[n - 1], parse) {
      if n < |lines| {
        assert n in w <==> n in w0;
        assert lines[n - 1] == init[n - 1];
      }
    }
  }

  /** Extending the file by a line that is not malformed keeps exact warnings. */
  lemma WarningsExactGood(lines: seq<string>, parse: string -> Option<Json>, w0: seq<nat>)
    requires |lines| > 0 && !Malformed(lines[|lines| - 1], parse)
    requires WarningsExact(lines[..|lines| - 1], parse, w0)
    ensures WarningsExact(lines, parse, w0)
  {
    var init := lines[..|lines| - 1];
    forall n | 1 <= n <= |lines| ensures n in w0 <==> Malformed(lines[n - 1], parse) {
      if n < |lines| {
        assert lines[n - 1] == init[n - 1];
      } else {
        assert n !in w0;
      }
    }
  }

  /** Exactly one warning per malformed line. */
  lemma {:induction false} LoadJsonlWarnings(lines: seq<string>, parse: string -> Option<Json>)
    ensures WarningsExact(lines, parse, LoadJsonl(lines, parse).warnings)
    decreases |lines|
  {
    if |lines| > 0 {
      var init := lines[..|lines| - 1];
      LoadJsonlWarnings(init, parse);
      LoadJsonlStep(lines, parse);
      var w0 := LoadJsonl(init, parse).warnings;
      if Malformed(lines[|lines| - 1], parse) {
        WarningsExactBad(lines, parse, w0);
      } else {
        WarningsExactGood(lines, parse, w0);
      }
    }
  }

  /** When no line is malformed, the loader warns about nothing and returns
      one record per non-blank line. */
  lemma {:induction false} CleanFileHasNoWarnings(lines: seq<string>, parse: string -> Option<Json>)
    requires forall n :: 0 <= n < |lines| ==> !Malformed(lines[n], parse)
    ensures LoadJsonl(lines, parse).warnings == []
    ensures |LoadJsonl(lines, parse).records| == NonBlankCount(lines)
    decreases |lines|
  {
    LoadJsonlAccountsForLines(lines, parse);
    if |lines| > 0 {
      var init := lines[..|lines| - 1];
      assert forall n :: 0 <= n < |init| ==> init[n] == lines[n];
      CleanFileHasNoWarnings(init, parse);
      assert !Malformed(lines[|lines| - 1], parse);
    }
  }

  /** The `steps` list of a trajectory document; a `steps` value that is not
      an array is read as an empty list. */
  function StepsOf(doc: Json): seq<Json> {
    EntriesOf(doc, "steps")
  }

  /** A decoded document `smart_load` accepts as a trajectory: an object with a `steps` key. */
  predicate IsTrajectoryDocument(doc: Json) {
    Get(doc, "steps").Some?
  }

  /** `load_trajectory_json` after decoding: a trajectory document gives its
      steps, an array is returned as it is, and any other value becomes a
      one-record list. `LoadTrajectoryJsonReads` states the result in terms
      of the document's own members. */
  function LoadTrajectoryJson(data: Json): (r: seq<Json>)
    ensures IsTrajectoryDocument(data) ==> r == StepsOf(data)
    ensures !IsTrajectoryDocument(data) && data.JArray? ==> r == data.items
    ensures !IsTrajectoryDocument(data) && !data.JArray? ==> r == [data]
  {
    if IsTrajectoryDocument(data) then StepsOf(data)
    else if data.JArray? then data.items
    else [data]
  }

  /** Member `i` of `doc` is the last binding of `key`. */
  predicate LastBinds(doc: Json, key: string, i: int) {
    doc.JObject? && 0 <= i < |doc.members| && doc.members[i].0 == key &&
    forall j :: i < j < |doc.members| ==> doc.members[j].0 != key
  }

  /** What `load_trajectory_json` returns, read off the document's members:
      with a `steps` key, the items of its last binding (none when that value
      is not an array); without one, the items of an array, or any other
      value as a one-record list. */
  lemma LoadTrajectoryJsonReads(data: Json)
    ensures forall i :: LastBinds(data, "steps", i) ==>
      LoadTrajectoryJson(data) == (if data.members[i].1.JArray? then data.members[i].1.items else [])
    ensures (!data.JObject? || forall i :: 0 <= i < |data.members| ==> data.members[i].0 != "steps") ==>
      LoadTrajectoryJson(data) == (if data.JArray? then data.items else [data])
  {
    if data.JObject? {
      LookupFindsLastBinding(data.members, "steps");
      forall i | LastBinds(data, "steps", i)
        ensures LoadTrajectoryJson(data) == (if data.members[i].1.JArray? then data.members[i].1.items else [])
      {
        LastBindingValue(data, "steps", i);
      }
    }
  }

  /** The last binding of a key is the value `get` finds. */
  lemma LastBindingValue(doc: Json, key: string, i: int)
    requires LastBinds(doc, key, i)
    ensures Get(doc, key) == Some(doc.members[i].1)
  {
    LookupFindsLastBinding(doc.members, key);
    var v := Lookup(doc.members, key).value;
    var i' :| 0 <= i' < |doc.members| && doc.members[i'] == (key, v) &&
      forall j :: i' < j < |doc.members| ==> doc.members[j].0 != key;
    assert i' == i by {
      assert doc.members[i].0 == key && doc.members[i'].0 == key;
    }
  }

  /** `smart_load` after the whole-document decoding attempt `whole` (None
      when the text does not start with `{` or does not decode) and the
      line loader's outcome `lines`. The trajectory reading wins exactly when
      the document is an object with `steps`; otherwise the file is read line
      by line, silently. */
  function SmartLoad(whole: Option<Json>, lines: Loaded): (r: (seq<Json>, Format))
    ensures r.1 == Trajectory <==> whole.Some? && IsTrajectoryDocument(whole.value)
    ensures r.1 == Trajectory ==> r.0 == LoadTrajectoryJson(whole.value)
    ensures r.1 == Jsonl ==> r.0 == lines.records
  {
    match whole
    case Some(doc) =>
      if IsTrajectoryDocument(doc) then (StepsOf(doc), Trajectory) else (lines.records, Jsonl)
    case None => (lines.records, Jsonl)
  }

  /** A document `{"steps": [...]}` loads as exactly its steps, in order, tagged trajectory. */
  lemma StepsDocumentLoadsItsSteps(steps: seq<Json>, lines: Loaded)
    ensures SmartLoad(Some(JObject([("steps", JArray(steps))])), lines) == (steps, Trajectory)
  {
    assert Get(JObject([("steps", JArray(steps))]), "steps") == Some(JArray(steps));
  }
}

=== FILE: report.dfy ===
/**
  What `extract_agent_code` does with the changes it found: the per-file
  statistics, the on-screen display of each payload, and the names of the
  files it saves them under.
 */
module Report {
  import opened JsonValue
  import Text
  import opened Extract

  // ---------------------------------------------------------------------------
  // Per-file statistics
  // ---------------------------------------------------------------------------

  /** How often a path was written and edited. */
  datatype FileStat = FileStat(path: string, writes: nat, edits: nat)

  function Paths(stats: seq<FileStat>): set<string> {
    set k | 0 <= k < |stats| :: stats[k].path
  }

  predicate DistinctPaths(stats: seq<FileStat>) {
    forall i, j :: 0 <= i < j < |stats| ==> stats[i].path != stats[j].path
  }

  function Counted(s: FileStat, tool: Tool): FileStat {
    match tool
    case Write => s.(writes := s.writes + 1)
    case Edit => s.(edits := s.edits + 1)
  }

  lemma PathsCons(s: FileStat, stats: seq<FileStat>)
    ensures Paths([s] + stats) == {s.path} + Paths(stats)
  {
    var t := [s] + stats;
    forall x | x in Paths(t) ensures x in {s.path} + Paths(stats) {
      var k :| 0 <= k < |t| && t[k].path == x;
      if k > 0 { assert t[k] == stats[k - 1]; }
    }
    forall x | x in Paths(stats) ensures x in Paths(t) {
      var k :| 0 <= k < |stats| && stats[k].path == x;
      assert t[k + 1] == stats[k];
    }
    assert t[0] == s;
  }

  /** A list stays free of repeated paths when a new path is put in front. */
  lemma DistinctCons(s: FileStat, stats: seq<FileStat>)
    ensures DistinctPaths([s] + stats) <==> s.path !in Paths(stats) && DistinctPaths(stats)
  {
    var t := [s] + stats;
    assert forall k :: 0 <= k < |stats| ==> t[k + 1] == stats[k];
    if DistinctPaths(t) {
      forall k | 0 <= k < |stats| ensures stats[k].path != s.path {
        assert t[0].path != t[k + 1].path;
      }
    }
  }

  /** Count one change: a known path keeps its place, a new path is appended
      with zero counts before the change is counted. */
  function Tick(stats: seq<FileStat>, c: CodeChange): (r: seq<FileStat>)
    requires DistinctPaths(stats)
    ensures DistinctPaths(r)
    ensures Paths(r) == Paths(stats) + {c.path}
    ensures |stats| <= |r| && forall k :: 0 <= k < |stats| ==> r[k].path == stats[k].path
    ensures c.path in Paths(stats) ==> |r| == |stats|
    ensures c.path !in Paths(stats) ==> r == stats + [Counted(FileStat(c.path, 0, 0), c.tool)]
    decreases |stats|
  {
    var added := Counted(FileStat(c.path, 0, 0), c.tool);
    if |stats| == 0 then
      PathsCons(added, []);
      [added]
    else
      var head := stats[0];
      var tail := stats[1..];
      assert stats == [head] + tail;
      DistinctCons(head, tail);
      PathsCons(head, tail);
      if head.path == c.path then
        var r := [Counted(head, c.tool)] + tail;
        DistinctCons(r[0], tail);
        PathsCons(r[0], tail);
        r
      else
        var rest := Tick(tail, c);
        var r := [head] + rest;
        DistinctCons(head, rest);
        PathsCons(head, rest);
        assert c.path !in Paths(stats) ==> r == stats + [added] by {
          if c.path !in Paths(stats) {
            ConcatAssoc([head], tail, [added]);
          }
        }
        r
  }

  /** `file_stats`, in order of each path's first change. */
  function FileStats(changes: seq<CodeChange>): (stats: seq<FileStat>)
    ensures DistinctPaths(stats)
    decreases |changes|
  {
    if |changes| == 0 then []
    else Tick(FileStats(changes[..|changes| - 1]), changes[|changes| - 1])
  }

  /** Reference count: the changes to `path` made with `tool`. */
  function CountFor(changes: seq<CodeChange>, path: string, tool: Tool): nat
    decreases |changes|
  {
    if |changes| == 0 then 0
    else
      var last := changes[|changes| - 1];
      CountFor(changes[..|changes| - 1], path, tool) + (if last.path == path && last.tool == tool then 1 else 0)
  }

  /** The counts a statistics list holds for `path`; zero for an unknown path. */
  function StatFor(stats: seq<FileStat>, path: string): (nat, nat)
    decreases |stats|
  {
    if |stats| == 0 then (0, 0)
    else if stats[0].path == path then (stats[0].writes, stats[0].edits)
    else StatFor(stats[1..], path)
  }

  /** What counting one change does to the counts of `path`. */
  function Bumped(counts: (nat, nat), c: CodeChange, path: string): (nat, nat) {
    if c.path != path then counts
    else if c.tool == Write then (counts.0 + 1, counts.1)
    else (counts.0, counts.1 + 1)
  }

  lemma {:induction false} TickStat(stats: seq<FileStat>, c: CodeChange, path: string)
    requires DistinctPaths(stats)
    ensures StatFor(Tick(stats, c), path) == Bumped(StatFor(stats, path), c, path)
    decreases |stats|
  {
    var r := Tick(stats, c);
    if |stats| == 0 {
      assert r == [Counted(FileStat(c.path, 0, 0), c.tool)];
      assert r[1..] == [];
    } else if stats[0].path == c.path {
      assert r == [Counted(stats[0], c.tool)] + stats[1..];
      assert r[0] == Counted(stats[0], c.tool) && r[1..] == stats[1..];
    } else {
      var rest := Tick(stats[1..], c);
      assert r == [stats[0]] + rest;
      assert r[0] == stats[0] && r[1..] == rest;
      TickStat(stats[1..], c, path);
    }
  }

  /** Every path's reported counts are its numbers of writes and of edits. */
  lemma {:induction false} FileStatsCounts(changes: seq<CodeChange>, path: string)
    ensures StatFor(FileStats(changes), path).0 == CountFor(changes, path, Write)
    ensures StatFor(FileStats(changes), path).1 == CountFor(changes, path, Edit)
    decreases |changes|
  {
    if |changes| > 0 {
      var init := changes[..|changes| - 1];
      var c := changes[|changes| - 1];
      FileStatsCounts(init, path);
      TickStat(FileStats(init), c, path);
      assert FileStats(changes) == Tick(FileStats(init), c);
      assert CountFor(changes, path, Write) == CountFor(init, path, Write) + (if c.path == path && c.tool == Write then 1 else 0);
      assert CountFor(changes, path, Edit) == CountFor(init, path, Edit) + (if c.path == path && c.tool == Edit then 1 else 0);
    }
  }

  /** The paths some change targets. */
  function ChangedPaths(changes: seq<CodeChange>): set<string> {
    set k | 0 <= k < |changes| :: changes[k].path
  }

  lemma ChangedPathsSnoc(changes: seq<CodeChange>)
    requires |changes| > 0
    ensures ChangedPaths(changes) == ChangedPaths(changes[..|changes| - 1]) + {changes[|changes| - 1].path}
  {
    var init := changes[..|changes| - 1];
    assert forall k :: 0 <= k < |init| ==> init[k] == changes[k];
    forall x | x in ChangedPaths(changes) ensures x in ChangedPaths(init) + {changes[|changes| - 1].path} {
      var k :| 0 <= k < |changes| && changes[k].path == x;
      if k < |init| { assert init[k].path == x; }
    }
  }

  /** The listed paths are exactly the changed paths. */
  lemma {:induction false} FileStatsPaths(changes: seq<CodeChange>)
    ensures Paths(FileStats(changes)) == ChangedPaths(changes)
    decreases |changes|
  {
    if |changes| > 0 {
      FileStatsPaths(changes[..|changes| - 1]);
      ChangedPathsSnoc(changes);
    }
  }

  /** Some change to `a` comes before every change to `b`. */
  predicate ChangedBefore(changes: seq<CodeChange>, a: string, b: string) {
    exists p :: 0 <= p < |changes| && changes[p].path == a && forall q :: 0 <= q <= p ==> changes[q].path != b
  }

  lemma ChangedBeforeExtend(changes: seq<CodeChange>, last: CodeChange, a: string, b: string)
    requires ChangedBefore(changes, a, b)
    ensures ChangedBefore(changes + [last], a, b)
  {
    var p :| 0 <= p < |changes| && changes[p].path == a && forall q :: 0 <= q <= p ==> changes[q].path != b;
    var cs := changes + [last];
    assert cs[p].path == a;
    assert forall q :: 0 <= q <= p ==> cs[q] == changes[q];
  }

  lemma OldPathBeforeNewPath(changes: seq<CodeChange>, last: CodeChange, a: string)
    requires a in ChangedPaths(changes) && last.path !in ChangedPaths(changes)
    ensures ChangedBefore(changes + [last], a, last.path)
  {
    var p :| 0 <= p < |changes| && changes[p].path == a;
    var cs := changes + [last];
    assert cs[p].path == a;
    assert forall q :: 0 <= q <= p ==> cs[q] == changes[q] && changes[q].path in ChangedPaths(changes);
  }

  /** The file list is in order of each path's first change, the order in
      which the dict printed by the file list received its keys: of two
      listed paths, the earlier one was changed before the later one ever
      was. */
  lemma {:induction false} FileStatsFirstChangeOrder(changes: seq<CodeChange>, i: nat, j: nat)
    requires i < j < |FileStats(changes)|
    ensures ChangedBefore(changes, FileStats(changes)[i].path, FileStats(changes)[j].path)
    decreases |changes|
  {
    var init := changes[..|changes| - 1];
    var last := changes[|changes| - 1];
    var s0 := FileStats(init);
    assert FileStats(changes) == Tick(s0, last);
    FileStatsPaths(init);
    if j < |s0| {
      FileStatsFirstChangeOrder(init, i, j);
    }
    SplitLast(changes);
    FileOrderStep(init, last, s0, FileStats(changes), i, j);
  }

  /** One counting step keeps the first-change order: known paths keep their
      places, and a new path goes last. */
  lemma FileOrderStep(init: seq<CodeChange>, last: CodeChange, s0: seq<FileStat>, s: seq<FileStat>, i: nat, j: nat)
    requires i < j < |s|
    requires |s0| <= |s| && forall k :: 0 <= k < |s0| ==> s[k].path == s0[k].path
    requires last.path in Paths(s0) ==> |s| == |s0|
    requires last.path !in Paths(s0) ==> s == s0 + [Counted(FileStat(last.path, 0, 0), last.tool)]
    requires Paths(s0) == ChangedPaths(init)
    requires j < |s0| ==> ChangedBefore(init, s0[i].path, s0[j].path)
    ensures ChangedBefore(init + [last], s[i].path, s[j].path)
  {
    if j < |s0| {
      ChangedBeforeExtend(init, last, s0[i].path, s0[j].path);
    } else {
      assert s[i] == s0[i] && s[j].path == last.path;
      assert s0[i].path in Paths(s0);
      OldPathBeforeNewPath(init, last, s0[i].path);
    }
  }

  /** Every listed file has at least one change, so its line names at least
      one of "writes" and "edits". */
  predicate AllChanged(stats: seq<FileStat>) {
    forall k :: 0 <= k < |stats| ==> stats[k].writes + stats[k].edits > 0
  }

  lemma {:induction false} FileStatsNonEmpty(changes: seq<CodeChange>)
    ensures AllChanged(FileStats(changes))
    decreases |changes|
  {
    if |changes| > 0 {
      var prev := FileStats(changes[..|changes| - 1]);
      var c := changes[|changes| - 1];
      FileStatsNonEmpty(changes[..|changes| - 1]);
      TickKeepsNonEmpty(prev, c);
    }
  }

  lemma AllChangedCons(s: FileStat, stats: seq<FileStat>)
    ensures AllChanged([s] + stats) <==> s.writes + s.edits > 0 && AllChanged(stats)
  {
    var t := [s] + stats;
    assert forall k :: 0 <= k < |stats| ==> t[k + 1] == stats[k];
    assert t[0] == s;
  }

  lemma {:induction false} TickKeepsNonEmpty(stats: seq<FileStat>, c: CodeChange)
    requires DistinctPaths(stats)
    requires AllChanged(stats)
    ensures AllChanged(Tick(stats, c))
    decreases |stats|
  {
    var r := Tick(stats, c);
    if |stats| == 0 {
      AllChangedCons(Counted(FileStat(c.path, 0, 0), c.tool), []);
      assert r == [Counted(FileStat(c.path, 0, 0), c.tool)] + [];
    } else {
      assert stats == [stats[0]] + stats[1..];
      AllChangedCons(stats[0], stats[1..]);
      if stats[0].path == c.path {
        AllChangedCons(Counted(stats[0], c.tool), stats[1..]);
        assert r == [Counted(stats[0], c.tool)] + stats[1..];
      } else {
        var rest := Tick(stats[1..], c);
        TickKeepsNonEmpty(stats[1..], c);
        AllChangedCons(stats[0], rest);
        assert r == [stats[0]] + rest;
      }
    }
  }

  /** The sum of all counts is the number of changes. */
  function StatsTotal(stats: seq<FileStat>): nat
    decreases |stats|
  {
    if |stats| == 0 then 0 else stats[0].writes + stats[0].edits + StatsTotal(stats[1..])
  }

  lemma {:induction false} TickTotal(stats: seq<FileStat>, c: CodeChange)
    requires DistinctPaths(stats)
    ensures StatsTotal(Tick(stats, c)) == StatsTotal(stats) + 1
    decreases |stats|
  {
    var r := Tick(stats, c);
    if |stats| == 0 {
      assert r[1..] == [];
    } else if stats[0].path == c.path {
      assert r[1..] == stats[1..];
    } else {
      assert r[1..] == Tick(stats[1..], c);
      TickTotal(stats[1..], c);
    }
  }

  lemma {:induction false} FileStatsTotal(changes: seq<CodeChange>)
    ensures StatsTotal(FileStats(changes)) == |changes|
    decreases |changes|
  {
    if |changes| > 0 {
      FileStatsTotal(changes[..|changes| - 1]);
      TickTotal(FileStats(changes[..|changes| - 1]), changes[|changes| - 1]);
    }
  }

  // ---------------------------------------------------------------------------
  // Display of a payload
  // ---------------------------------------------------------------------------

  /** Payloads longer than this are cut on screen. */
  const DisplayLimit: nat := 3000

  /** The line after a cut payload, stating its full length. */
  function LengthNotice(length: nat): string {
    "\n... (共 " + Text.Decimal(length) + " 字符，已截断)"
  }

  /** What the detail view prints for one payload: the text shown and, when
      it was cut, the notice line. */
  datatype Shown = Shown(text: string, notice: Option<string>)

  function Display(payload: string): (d: Shown)
    ensures d.text <= payload
    ensures |d.text| == if |payload| <= DisplayLimit then |payload| else DisplayLimit
    ensures d.notice.Some? <==> |payload| > DisplayLimit
    ensures d.notice.Some? ==> d.notice.value == LengthNotice(|payload|)
  {
    if |payload| > DisplayLimit then Shown(payload[..DisplayLimit], Some(LengthNotice(|payload|)))
    else Shown(payload, None)
  }

  /** The notice reads back as the payload's full length. */
  lemma LengthNoticeStatesLength(payload: string)
    requires |payload| > DisplayLimit
    ensures exists digits :: Text.AllDigits(digits) && Text.DecimalValue(digits) == |payload| &&
                             Display(payload).notice == Some("\n... (共 " + digits + " 字符，已截断)")
  {
    Text.DecimalRoundTrip(|payload|);
    var digits := Text.Decimal(|payload|);
    assert Display(payload).notice == Some("\n... (共 " + digits + " 字符，已截断)");
  }

  // ---------------------------------------------------------------------------
  // Saved file names
  // ---------------------------------------------------------------------------

  /** The path with both separators turned into `_` and leading `_` removed. */
  function SafeStem(path: string): (s: string)
    ensures NoSeparator(s)
    ensures |s| > 0 ==> s[0] != '_'
  {
    var s := Text.LStripChar(Sanitized(path), '_');
    assert NoSeparator(s) by {
      forall k | 0 <= k < |s| ensures s[k] != '/' && s[k] != '\\' {
        assert s[k] == Sanitized(path)[|path| - |s| + k];
      }
    }
    s
  }

  /** The path with `/` and `\` both replaced by `_`. */
  function Sanitized(path: string): (s: string)
    ensures |s| == |path|
    ensures forall k :: 0 <= k < |path| ==> s[k] == (if path[k] == '/' || path[k] == '\\' then '_' else path[k])
  {
    Text.ReplaceChar(Text.ReplaceChar(path, '/', '_'), '\\', '_')
  }

  /** The stem keeps the path's characters after its leading separators and
      underscores, separators turned into `_`. */
  lemma SafeStemKeepsPath(path: string)
    ensures |SafeStem(path)| <= |path|
    ensures forall k :: 0 <= k < |path| - |SafeStem(path)| ==> path[k] == '/' || path[k] == '\\' || path[k] == '_'
    ensures forall k :: |path| - |SafeStem(path)| <= k < |path| ==>
      SafeStem(path)[k - (|path| - |SafeStem(path)|)] == Sanitized(path)[k]
  {
    var s := SafeStem(path);
    var b := Sanitized(path);
    assert s == b[|b| - |s|..];
    forall k | 0 <= k < |path| - |s| ensures path[k] == '/' || path[k] == '\\' || path[k] == '_' {
      assert b[k] == '_';
    }
  }

  /** A file name that stays inside the output directory. */
  predicate NoSeparator(s: string) {
    forall i :: 0 <= i < |s| ==> s[i] != '/' && s[i] != '\\'
  }

  lemma NoSeparatorConcat(a: string, b: string)
    requires NoSeparator(a) && NoSeparator(b)
    ensures NoSeparator(a + b)
  {
    forall i | 0 <= i < |a + b| ensures (a + b)[i] != '/' && (a + b)[i] != '\\' {
      if i < |a| { assert (a + b)[i] == a[i]; } else { assert (a + b)[i] == b[i - |a|]; }
    }
  }

  lemma DigitsHaveNoSeparator(digits: string)
    requires Text.AllDigits(digits)
    ensures NoSeparator(digits) && '_' !in digits
  {
    forall i | 0 <= i < |digits| ensures digits[i] != '/' && digits[i] != '\\' && digits[i] != '_' {
      assert Text.IsDigit(digits[i]);
    }
  }

  /** The `k`-th saved file's name (`k` counts from 1): the number padded to
      three digits and `_`, then `edit_`, the stem and `.diff` for an edit, or
      `write_` and the stem otherwise. Every part can be cut back out of the
      name, and the name never leaves the output directory. */
  function SaveName(k: nat, c: CodeChange): (name: string)
    ensures NoSeparator(name)
    ensures Text.Pad3(k) + "_" <= name
    ensures c.tool == Edit ==>
      && |name| == |Text.Pad3(k)| + 11 + |SafeStem(c.path)|
      && name[|Text.Pad3(k)| + 1..|Text.Pad3(k)| + 6] == "edit_"
      && name[|Text.Pad3(k)| + 6..|name| - 5] == SafeStem(c.path)
      && name[|name| - 5..] == ".diff"
    ensures c.tool == Write ==>
      && |name| == |Text.Pad3(k)| + 7 + |SafeStem(c.path)|
      && name[|Text.Pad3(k)| + 1..|Text.Pad3(k)| + 7] == "write_"
      && name[|Text.Pad3(k)| + 7..] == SafeStem(c.path)
  {
    var digits := Text.Pad3(k);
    var tail := SaveTail(c);
    DigitsHaveNoSeparator(digits);
    NameLayout(digits, tail, SafeStem(c.path), c.tool == Edit);
    (digits + "_") + tail
  }

  /** Where the parts of a saved name sit, for any number text and tail. */
  lemma NameLayout(digits: string, tail: string, stem: string, edit: bool)
    requires NoSeparator(digits) && NoSeparator(tail)
    requires edit ==>
      |tail| == 10 + |stem| && tail[..5] == "edit_" && tail[5..|tail| - 5] == stem && tail[|tail| - 5..] == ".diff"
    requires !edit ==> |tail| == 6 + |stem| && tail[..6] == "write_" && tail[6..] == stem
    ensures var name := (digits + "_") + tail;
      && NoSeparator(name)
      && digits + "_" <= name
      && (edit ==>
        && |name| == |digits| + 11 + |stem|
        && name[|digits| + 1..|digits| + 6] == "edit_"
        && name[|digits| + 6..|name| - 5] == stem
        && name[|name| - 5..] == ".diff")
      && (!edit ==>
        && |name| == |digits| + 7 + |stem|
        && name[|digits| + 1..|digits| + 7] == "write_"
        && name[|digits| + 7..] == stem)
  {
    var a := digits + "_";
    NoSeparatorConcat(digits, "_");
    NoSeparatorConcat(a, tail);
    assert (a + tail)[..|a|] == a;
    TailSlices(a, tail, edit);
  }

  /** Slices of the second part of a concatenation, at the cut points of a
      saved name's tail. */
  lemma TailSlices(a: string, b: string, edit: bool)
    requires if edit then |b| >= 10 else |b| >= 6
    ensures edit ==>
      && (a + b)[|a|..|a| + 5] == b[..5]
      && (a + b)[|a| + 5..|a + b| - 5] == b[5..|b| - 5]
      && (a + b)[|a + b| - 5..] == b[|b| - 5..]
    ensures !edit ==> (a + b)[|a|..|a| + 6] == b[..6] && (a + b)[|a| + 6..] == b[6..]
  {
    if edit {
      SliceAfter(a, b, 0, 5);
      SliceAfter(a, b, 5, |b| - 5);
      SliceAfter(a, b, |b| - 5, |b|);
    } else {
      SliceAfter(a, b, 0, 6);
      SliceAfter(a, b, 6, |b|);
    }
  }

  /** A slice of the second part of a concatenation. */
  lemma SliceAfter(a: string, b: string, i: nat, j: nat)
    requires i <= j <= |b|
    ensures (a + b)[|a| + i..|a| + j] == b[i..j]
  {
  }

  lemma MarkersSafe()
    ensures NoSeparator("edit_") && NoSeparator("write_") && NoSeparator(".diff")
  {
  }

  /** The part of a saved name after the number and its `_`. */
  function SaveTail(c: CodeChange): (tail: string)
    ensures NoSeparator(tail)
    ensures c.tool == Edit ==>
      && |tail| == 10 + |SafeStem(c.path)|
      && tail[..5] == "edit_" && tail[5..|tail| - 5] == SafeStem(c.path) && tail[|tail| - 5..] == ".diff"
    ensures c.tool == Write ==>
      && |tail| == 6 + |SafeStem(c.path)|
      && tail[..6] == "write_" && tail[6..] == SafeStem(c.path)
  {
    var stem := SafeStem(c.path);
    MarkersSafe();
    if c.tool == Edit then
      NoSeparatorConcat("edit_", stem);
      NoSeparatorConcat("edit_" + stem, ".diff");
      var t := ("edit_" + stem) + ".diff";
      assert t[..|"edit_" + stem|] == "edit_" + stem;
      assert ("edit_" + stem)[5..] == stem;
      t
    else
      NoSeparatorConcat("write_", stem);
      "write_" + stem
  }

  lemma UnderscoreAfter(a: string, x: string)
    ensures (a + "_" + x)[|a|] == '_'
  {
  }

  /** The digits before the first `_` determine the number. */
  lemma DigitRunUnique(a: string, b: string, x: string, y: string)
    requires Text.AllDigits(a) && Text.AllDigits(b)
    requires a + "_" + x == b + "_" + y
    ensures a == b
  {
    var s := a + "_" + x;
    var t := b + "_" + y;
    DigitsHaveNoSeparator(a);
    DigitsHaveNoSeparator(b);
    assert '_' !in a && '_' !in b;
    if |a| < |b| {
      UnderscoreAfter(a, x);
      assert false;
    } else if |b| < |a| {
      UnderscoreAfter(b, y);
      assert false;
    } else {
      assert a == s[..|a|];
      assert b == t[..|b|];
    }
  }

  /** Two names with the same numbered prefix have the same number. */
  lemma SaveNameIndexPrefix(i: nat, j: nat, x: string, y: string)
    requires Text.Pad3(i) + "_" + x == Text.Pad3(j) + "_" + y
    ensures i == j
  {
    DigitRunUnique(Text.Pad3(i), Text.Pad3(j), x, y);
    Text.Pad3Value(i);
    Text.Pad3Value(j);
  }

  /** The names under which the changes are saved, in order. */
  function SaveNames(changes: seq<CodeChange>): (names: seq<string>)
    ensures |names| == |changes|
    ensures forall k :: 0 <= k < |changes| ==> names[k] == SaveName(k + 1, changes[k])
  {
    seq(|changes|, k requires 0 <= k < |changes| => SaveName(k + 1, changes[k]))
  }

  /** No saved file overwrites another: the names are pairwise distinct,
      whatever the paths. */
  lemma SaveNamesDistinct(changes: seq<CodeChange>)
    ensures forall k, m :: 0 <= k < m < |changes| ==> SaveNames(changes)[k] != SaveNames(changes)[m]
  {
    var names := SaveNames(changes);
    assert forall k :: 0 <= k < |names| ==> Text.Pad3(k + 1) + "_" <= names[k];
    NumberedNamesDistinct(names);
  }

  /** A list whose k-th name starts with the padded number k + 1 has no repeats. */
  lemma NumberedNamesDistinct(names: seq<string>)
    requires forall k :: 0 <= k < |names| ==> Text.Pad3(k + 1) + "_" <= names[k]
    ensures forall k, m :: 0 <= k < m < |names| ==> names[k] != names[m]
  {
    forall k, m | 0 <= k < m < |names| ensures names[k] != names[m] {
      NumberedNamesDiffer(k + 1, m + 1, names[k], names[m]);
    }
  }

  /** Names that start with different padded numbers differ. */
  lemma NumberedNamesDiffer(i: nat, j: nat, a: string, b: string)
    requires i != j
    requires Text.Pad3(i) + "_" <= a && Text.Pad3(j) + "_" <= b
    ensures a != b
  {
    if a == b {
      var pa := Text.Pad3(i) + "_";
      var pb := Text.Pad3(j) + "_";
      assert a == pa + a[|pa|..];
      assert b == pb + b[|pb|..];
      SaveNameIndexPrefix(i, j, a[|pa|..], b[|pb|..]);
    }
  }
}

=== FILE: text.dfy ===
/**
  The handful of Python string operations the viewer relies on: `str.split`
  on one character, `str.replace` and `str.lstrip` of single characters,
  `str.strip()`, slicing `s[:n]`, and decimal formatting of naturals with the
  `03d` zero-padded variant.
 */
module Text {

  // ---------------------------------------------------------------------------
  // Splitting and joining on a separator character
  // ---------------------------------------------------------------------------

  /** `s.split(sep)`: always at least one part; separators are never inside a part. */
  function Split(s: string, sep: char): (parts: seq<string>)
    ensures |parts| >= 1
    ensures forall i :: 0 <= i < |parts| ==> sep !in parts[i]
    decreases |s|
  {
    if |s| == 0 then [""]
    else if s[0] == sep then [""] + Split(s[1..], sep)
    else
      var rest := Split(s[1..], sep);
      [[s[0]] + rest[0]] + rest[1..]
  }

  /** `sep.join(parts)`. */
  function Join(parts: seq<string>, sep: char): string
    requires |parts| >= 1
    decreases |parts|
  {
    if |parts| == 1 then parts[0] else parts[0] + [sep] + Join(parts[1..], sep)
  }

  /** Splitting loses nothing: the separators are exactly the cut points. */
  lemma {:induction false} JoinSplit(s: string, sep: char)
    ensures Join(Split(s, sep), sep) == s
    decreases |s|
  {
    if |s| == 0 {
    } else if s[0] == sep {
      JoinSplit(s[1..], sep);
      var rest := Split(s[1..], sep);
      assert Split(s, sep) == [""] + rest;
      assert ([""] + rest)[1..] == rest;
      assert s == [sep] + s[1..];
    } else {
      JoinSplit(s[1..], sep);
      var rest := Split(s[1..], sep);
      var parts := Split(s, sep);
      assert parts == [[s[0]] + rest[0]] + rest[1..];
      if |rest| == 1 {
        assert s == [s[0]] + s[1..];
      } else {
        assert parts[1..] == rest[1..];
        assert Join(rest, sep) == rest[0] + [sep] + Join(rest[1..], sep);
        assert s == [s[0]] + s[1..];
      }
    }
  }

  /** And joining loses nothing when no part holds the separator. */
  lemma {:induction false} SplitJoin(parts: seq<string>, sep: char)
    requires |parts| >= 1
    requires forall i :: 0 <= i < |parts| ==> sep !in parts[i]
    ensures Split(Join(parts, sep), sep) == parts
    decreases |parts|, |parts[0]|
  {
    if |parts[0]| == 0 {
      if |parts| == 1 {
      } else {
        SplitJoin(parts[1..], sep);
        var s := Join(parts, sep);
        assert s == [sep] + Join(parts[1..], sep);
        assert s[1..] == Join(parts[1..], sep);
        assert [""] + parts[1..] == parts;
      }
    } else {
      var c := parts[0][0];
      assert c != sep by { assert c == parts[0][0]; }
      var tail := [parts[0][1..]] + parts[1..];
      assert forall i :: 0 <= i < |tail| ==> sep !in tail[i] by {
        forall i | 0 <= i < |tail| ensures sep !in tail[i] {
          if i == 0 {
            assert parts[0] == [c] + parts[0][1..];
          } else {
            assert tail[i] == parts[i];
          }
        }
      }
      SplitJoin(tail, sep);
      var s := Join(parts, sep);
      assert s == [c] + Join(tail, sep) by {
        if |parts| == 1 {
          assert tail == [parts[0][1..]];
          assert parts[0] == [c] + parts[0][1..];
        } else {
          assert tail[1..] == parts[1..];
          assert parts[0] == [c] + parts[0][1..];
        }
      }
      assert s[0] == c && s[1..] == Join(tail, sep);
      var rest := Split(s[1..], sep);
      assert rest == tail;
      assert [[c] + rest[0]] + rest[1..] == parts by {
        assert [c] + parts[0][1..] == parts[0];
        assert rest[1..] == parts[1..];
      }
    }
  }

  // ---------------------------------------------------------------------------
  // Decimal formatting
  // ---------------------------------------------------------------------------

  predicate IsDigit(c: char) {
    '0' <= c <= '9'
  }

  predicate AllDigits(s: string) {
    forall i :: 0 <= i < |s| ==> IsDigit(s[i])
  }

  function DigitChar(d: nat): (c: char)
    requires d < 10
    ensures IsDigit(c)
  {
    "0123456789"[d]
  }

  function DigitValue(c: char): (d: nat)
    requires IsDigit(c)
    ensures d < 10
  {
    (c as int - '0' as int) as nat
  }

  lemma DigitRoundTrip(d: nat)
    requires d < 10
    ensures DigitValue(DigitChar(d)) == d
  {
    assert "0123456789"[d] as int == '0' as int + d;
  }

  /** The number an all-digit string denotes (most significant digit first). */
  function DecimalValue(s: string): nat
    requires AllDigits(s)
    decreases |s|
  {
    if |s| == 0 then 0
    else DecimalValue(s[..|s| - 1]) * 10 + DigitValue(s[|s| - 1])
  }

  /** `str(n)` for a natural: the shortest decimal numeral. */
  function Decimal(n: nat): (s: string)
    ensures |s| >= 1 && AllDigits(s)
    ensures |s| > 1 ==> s[0] != '0'
    decreases n
  {
    if n < 10 then [DigitChar(n)] else Decimal(n / 10) + [DigitChar(n % 10)]
  }

  /** Reading back a formatted natural gives the natural. */
  lemma {:induction false} DecimalRoundTrip(n: nat)
    ensures DecimalValue(Decimal(n)) == n
    decreases n
  {
    var s := Decimal(n);
    if n < 10 {
      DigitRoundTrip(n);
      assert s[..0] == [];
    } else {
      DecimalRoundTrip(n / 10);
      DigitRoundTrip(n % 10);
      assert s[..|s| - 1] == Decimal(n / 10);
    }
  }

  /** Leading zeros do not change the value of a numeral. */
  lemma {:induction false} LeadingZeroValue(s: string)
    requires AllDigits(s)
    ensures AllDigits("0" + s) && DecimalValue("0" + s) == DecimalValue(s)
    decreases |s|
  {
    var z := "0" + s;
    if |s| == 0 {
      assert z[..0] == [];
    } else {
      LeadingZeroValue(s[..|s| - 1]);
      assert z[..|z| - 1] == "0" + s[..|s| - 1];
    }
  }

  /** `'0' * k`. */
  function Zeros(k: nat): (z: string)
    ensures |z| == k && forall i :: 0 <= i < k ==> z[i] == '0'
  {
    if k == 0 then "" else "0" + Zeros(k - 1)
  }

  /** Python's `f"{n:03d}"`: the numeral of `n`, zero-padded on the left to at least three characters. */
  function Pad3(n: nat): (s: string)
    ensures AllDigits(s)
    ensures |s| == if |Decimal(n)| < 3 then 3 else |Decimal(n)|
    ensures Decimal(n) <= s[|s| - |Decimal(n)|..] && forall i :: 0 <= i < |s| - |Decimal(n)| ==> s[i] == '0'
  {
    var d := Decimal(n);
    if |d| < 3 then Zeros(3 - |d|) + d else d
  }

  /** Padding keeps the number: the padded numeral still reads as `n`. */
  lemma {:induction false} Pad3Value(n: nat)
    ensures DecimalValue(Pad3(n)) == n
  {
    var d := Decimal(n);
    DecimalRoundTrip(n);
    if |d| == 1 {
      LeadingZeroValue(d);
      LeadingZeroValue("0" + d);
      assert Pad3(n) == "0" + ("0" + d);
    } else if |d| == 2 {
      LeadingZeroValue(d);
      assert Pad3(n) == "0" + d;
    }
  }

  // ---------------------------------------------------------------------------
  // Character replacement, stripping and slicing
  // ---------------------------------------------------------------------------

  /** `s.replace(from, to)` for one-character strings. */
  function ReplaceChar(s: string, from: char, to: char): (r: string)
    ensures |r| == |s|
    ensures forall i :: 0 <= i < |s| ==> r[i] == (if s[i] == from then to else s[i])
  {
    if |s| == 0 then "" else [if s[0] == from then to else s[0]] + ReplaceChar(s[1..], from, to)
  }

  /** `s.lstrip(c)` for one character: the result is the suffix left after
      every leading `c` is removed. */
  function LStripChar(s: string, c: char): (r: string)
    ensures |r| <= |s| && r == s[|s| - |r|..]
    ensures |r| > 0 ==> r[0] != c
    ensures forall i :: 0 <= i < |s| - |r| ==> s[i] == c
  {
    if |s| == 0 then ""
    else if s[0] == c then LStripChar(s[1..], c)
    else s
  }

  /** Python's `s[:n]` for any integer `n`: a negative bound counts back from the end. */
  function PyPrefix(s: string, n: int): (r: string)
    ensures r <= s
    ensures 0 <= n ==> |r| == if n < |s| then n else |s|
    ensures n < 0 ==> |r| == if |s| + n < 0 then 0 else |s| + n
  {
    if n >= 0 then (if n < |s| then s[..n] else s)
    else if |s| + n < 0 then ""
    else s[..|s| + n]
  }

  /** The characters Python's `str.isspace` accepts. */
  predicate IsSpace(c: char) {
    || ('\t' <= c <= '\r')
    || ('\U{1C}' <= c <= '\U{1F}')
    || c == ' ' || c == '\U{85}' || c == '\U{A0}' || c == '\U{1680}'
    || ('\U{2000}' <= c <= '\U{200A}')
    || c == '\U{2028}' || c == '\U{2029}' || c == '\U{202F}' || c == '\U{205F}' || c == '\U{3000}'
  }

  function LStripSpace(s: string): (r: string)
    ensures |r| <= |s| && r == s[|s| - |r|..]
    ensures |r| > 0 ==> !IsSpace(r[0])
    ensures forall i :: 0 <= i < |s| - |r| ==> IsSpace(s[i])
  {
    if |s| == 0 then ""
    else if IsSpace(s[0]) then LStripSpace(s[1..])
    else s
  }

  function RStripSpace(s: string): (r: string)
    ensures |r| <= |s| && r == s[..|r|]
    ensures |r| > 0 ==> !IsSpace(r[|r| - 1])
    ensures forall i :: |r| <= i < |s| ==> IsSpace(s[i])
  {
    if |s| == 0 then ""
    else if IsSpace(s[|s| - 1]) then RStripSpace(s[..|s| - 1])
    else s
  }

  predicate AllSpace(s: string) {
    forall i :: 0 <= i < |s| ==> IsSpace(s[i])
  }

  /** `s.strip()`: neither end of the result is whitespace. */
  function Strip(s: string): (r: string)
    ensures |r| > 0 ==> !IsSpace(r[0]) && !IsSpace(r[|r| - 1])
  {
    RStripSpace(LStripSpace(s))
  }

  /** Stripping the left end removes only whitespace. */
  lemma LeftFrame(s: string) returns (pre: string)
    ensures s == pre + LStripSpace(s) && AllSpace(pre)
  {
    var left := LStripSpace(s);
    pre := s[..|s| - |left|];
    assert s == pre + left by {
      assert s == s[..|s| - |left|] + s[|s| - |left|..];
    }
    forall i | 0 <= i < |pre| ensures IsSpace(pre[i]) {
      assert pre[i] == s[i];
    }
  }

  /** Stripping the right end removes only whitespace. */
  lemma RightFrame(t: string) returns (post: string)
    ensures t == RStripSpace(t) + post && AllSpace(post)
  {
    var r := RStripSpace(t);
    post := t[|r|..];
    assert t == r + post by {
      assert t == t[..|r|] + t[|r|..];
    }
    forall i | 0 <= i < |post| ensures IsSpace(post[i]) {
      assert post[i] == t[|r| + i];
    }
  }

  /** Stripping only removes whitespace: `s` is the stripped text framed by
      whitespace on both sides. */
  lemma StripFrames(s: string) returns (pre: string, post: string)
    ensures s == pre + Strip(s) + post && AllSpace(pre) && AllSpace(post)
  {
    pre := LeftFrame(s);
    var left := LStripSpace(s);
    post := RightFrame(left);
    assert left == Strip(s) + post;
    assert s == pre + (Strip(s) + post);
  }

  /** A line is blank exactly when it consists of whitespace only. */
  lemma StripEmptyIffBlank(s: string)
    ensures |Strip(s)| == 0 <==> AllSpace(s)
  {
    var r := Strip(s);
    var pre, post := StripFrames(s);
    if |r| != 0 {
      assert s[|pre|] == r[0];
    } else {
      assert s == pre + post;
      forall i | 0 <= i < |s| ensures IsSpace(s[i]) {
        if i < |pre| { assert s[i] == pre[i]; } else { assert s[i] == post[i - |pre|]; }
      }
    }
  }
}

=== FILE: views.dfy ===
/**
  The viewer's read-only views of the loaded records: the `type` summary,
  showing one line, filtering by `type`, projecting dotted field paths, and
  the truncation `print_json` applies to its rendered text.

  Records are numbered from 1 in the loaded sequence, so "line N" is the N-th
  successfully loaded record, not the N-th physical line of the file.
 */
module Views {
  import opened JsonValue
  import Text
  import Histogram

  // ---------------------------------------------------------------------------
  // show_summary
  // ---------------------------------------------------------------------------

  /** `r.get('type', 'unknown')`: the bucket a record is counted under. */
  function TypeKey(r: Json): Json {
    GetOr(r, "type", JString("unknown"))
  }

  function TypeKeys(records: seq<Json>): (ks: seq<Json>)
    ensures |ks| == |records| && forall i :: 0 <= i < |records| ==> ks[i] == TypeKey(records[i])
  {
    seq(|records|, i requires 0 <= i < |records| => TypeKey(records[i]))
  }

  /** The `type` histogram of `show_summary`, in first-appearance order. */
  function TypeHistogram(records: seq<Json>): seq<Histogram.Bucket> {
    Histogram.Tally(TypeKeys(records))
  }

  /** Every record is counted exactly once: the counts sum to the number of
      records, each bucket counts the records with that `type`, and a record
      without `type` is counted under "unknown". */
  lemma TypeHistogramCounts(records: seq<Json>)
    ensures Histogram.Total(TypeHistogram(records)) == |records|
    ensures forall k :: Histogram.CountOf(TypeHistogram(records), k) == multiset(TypeKeys(records))[k]
    ensures forall i :: 0 <= i < |records| && Get(records[i], "type").None? ==>
      JString("unknown") in Histogram.KeySet(TypeHistogram(records))
  {
    var ks := TypeKeys(records);
    Histogram.TallyTotal(ks);
    Histogram.TallyKeys(ks);
    forall k ensures Histogram.CountOf(TypeHistogram(records), k) == multiset(ks)[k] {
      Histogram.TallyCount(ks, k);
    }
    forall i | 0 <= i < |records| && Get(records[i], "type").None?
      ensures JString("unknown") in Histogram.KeySet(TypeHistogram(records))
    {
      assert ks[i] == JString("unknown");
    }
  }

  /** The summary's type lines as printed: most frequent first, and types
      with equal counts in order of first appearance. */
  function TypeReport(records: seq<Json>): (report: seq<Histogram.Bucket>)
    ensures Histogram.SortedByCountDesc(report)
    ensures multiset(report) == multiset(TypeHistogram(records))
    ensures forall c :: Histogram.WithCount(report, c) == Histogram.WithCount(TypeHistogram(records), c)
  {
    Histogram.SortByCountStable(TypeHistogram(records));
    Histogram.SortByCount(TypeHistogram(records))
  }

  /** A log whose records carry no `type` at all summarises to a single
      "unknown" bucket holding every record. */
  lemma UntypedLogIsAllUnknown(records: seq<Json>)
    requires |records| > 0
    requires forall i :: 0 <= i < |records| ==> Get(records[i], "type").None?
    ensures TypeHistogram(records) == [Histogram.Bucket(JString("unknown"), |records|)]
  {
    var ks := TypeKeys(records);
    var u := JString("unknown");
    assert forall i :: 0 <= i < |ks| ==> ks[i] == u;
    ConstantKeys(ks, u);
    Histogram.TallyKeys(ks);
    Histogram.TallyCount(ks, u);
    SingleBucket(TypeHistogram(records), u, |records|);
  }

  /** A non-empty run of one key: that key is the only one, seen every time. */
  lemma ConstantKeys(ks: seq<Json>, u: Json)
    requires |ks| > 0 && forall i :: 0 <= i < |ks| ==> ks[i] == u
    ensures (set x | x in ks) == {u}
    ensures multiset(ks)[u] == |ks|
  {
    assert ks[0] in ks;
    MultisetOfConstant(ks, u);
  }

  /** A histogram with the single key `u` counted `n` times. */
  lemma SingleBucket(h: seq<Histogram.Bucket>, u: Json, n: nat)
    requires Histogram.DistinctKeys(h) && Histogram.KeySet(h) == {u} && Histogram.CountOf(h, u) == n
    ensures h == [Histogram.Bucket(u, n)]
  {
    SingleKeyHistogram(h, u);
  }

  lemma {:induction false} MultisetOfConstant(s: seq<Json>, u: Json)
    requires forall i :: 0 <= i < |s| ==> s[i] == u
    ensures multiset(s) == multiset{} [u := |s|]
    decreases |s|
  {
    if |s| > 0 {
      MultisetOfConstant(s[1..], u);
      assert s == [s[0]] + s[1..];
    }
  }

  lemma SingleKeyHistogram(h: seq<Histogram.Bucket>, u: Json)
    requires Histogram.DistinctKeys(h) && Histogram.KeySet(h) == {u}
    ensures |h| == 1 && h[0].key == u && Histogram.CountOf(h, u) == h[0].count
  {
    Histogram.DistinctKeysCardinality(h);
    assert h[0].key in Histogram.KeySet(h);
  }

  // ---------------------------------------------------------------------------
  // show_line
  // ---------------------------------------------------------------------------

  /** The outcome of `show_line`: the record, or the out-of-range error that
      names the valid range `1..count` and makes the process exit with 1. */
  datatype LineResult = Line(record: Json) | OutOfRange(count: nat)

  function ShowLine(records: seq<Json>, lineNum: int): (r: LineResult)
    ensures r.Line? <==> 1 <= lineNum <= |records|
    ensures r.Line? ==> r.record == records[lineNum - 1]
    ensures r.OutOfRange? ==> r.count == |records|
  {
    var idx := lineNum - 1;
    if 0 <= idx < |records| then Line(records[idx]) else OutOfRange(|records|)
  }

  // ---------------------------------------------------------------------------
  // Numbered selection, shared by show_by_type and show_keys
  // ---------------------------------------------------------------------------

  /** `for i, r in enumerate(records, 1)`, keeping `(i, x)` whenever `f(r)` produces some `x`. */
  function Numbered<T>(records: seq<Json>, f: Json -> Option<T>): seq<(nat, T)>
    decreases |records|
  {
    if |records| == 0 then []
    else
      var prev := Numbered(records[..|records| - 1], f);
      match f(records[|records| - 1])
      case Some(x) => prev + [(|records|, x)]
      case None => prev
  }

  function NumbersOf<T>(out: seq<(nat, T)>): set<nat> {
    set k | 0 <= k < |out| :: out[k].0
  }

  /** Every kept pair carries a record number and what `f` produced for that record. */
  lemma {:induction false} NumberedSound<T>(records: seq<Json>, f: Json -> Option<T>)
    ensures forall k :: 0 <= k < |Numbered(records, f)| ==>
      && 1 <= Numbered(records, f)[k].0 <= |records|
      && f(records[Numbered(records, f)[k].0 - 1]) == Some(Numbered(records, f)[k].1)
    decreases |records|
  {
    if |records| > 0 {
      var init := records[..|records| - 1];
      NumberedSound(init, f);
      assert forall n :: 0 <= n < |init| ==> init[n] == records[n];
      var prev := Numbered(init, f);
      var out := Numbered(records, f);
      match f(records[|records| - 1])
      case Some(x) =>
        assert out == prev + [(|records|, x)];
        assert forall k :: 0 <= k < |prev| ==> out[k] == prev[k];
      case None =>
        assert out == prev;
    }
  }

  /** Record numbers are kept in increasing order. */
  lemma {:induction false} NumberedIncreasing<T>(records: seq<Json>, f: Json -> Option<T>)
    ensures forall k :: 0 <= k < |Numbered(records, f)| ==> Numbered(records, f)[k].0 <= |records|
    ensures forall k, m :: 0 <= k < m < |Numbered(records, f)| ==> Numbered(records, f)[k].0 < Numbered(records, f)[m].0
    decreases |records|
  {
    if |records| > 0 {
      var init := records[..|records| - 1];
      NumberedIncreasing(init, f);
      var prev := Numbered(init, f);
      var out := Numbered(records, f);
      match f(records[|records| - 1])
      case Some(x) =>
        assert out == prev + [(|records|, x)];
        assert forall k :: 0 <= k < |prev| ==> out[k] == prev[k];
      case None =>
        assert out == prev;
    }
  }

  /** Every record `f` accepts is kept. */
  lemma {:induction false} NumberedComplete<T>(records: seq<Json>, f: Json -> Option<T>)
    ensures forall n :: 1 <= n <= |records| && f(records[n - 1]).Some? ==> n in NumbersOf(Numbered(records, f))
    decreases |records|
  {
    if |records| > 0 {
      var init := records[..|records| - 1];
      NumberedComplete(init, f);
      var prev := Numbered(init, f);
      var out := Numbered(records, f);
      assert NumbersOf(prev) <= NumbersOf(out) by {
        forall n | n in NumbersOf(prev) ensures n in NumbersOf(out) {
          var k :| 0 <= k < |prev| && prev[k].0 == n;
          assert out[k] == prev[k];
        }
      }
      assert forall n :: 0 <= n < |init| ==> init[n] == records[n];
      if f(records[|records| - 1]).Some? {
        assert out[|prev|].0 == |records|;
      }
    }
  }

  /** A record number is kept exactly when `f` accepts that record. */
  lemma NumberedExact<T>(records: seq<Json>, f: Json -> Option<T>)
    ensures forall n :: 1 <= n <= |records| ==>
      (n in NumbersOf(Numbered(records, f)) <==> f(records[n - 1]).Some?)
  {
    var out := Numbered(records, f);
    NumberedSound(records, f);
    NumberedComplete(records, f);
    forall n | n in NumbersOf(out) ensures f(records[n - 1]).Some? {
      var k :| 0 <= k < |out| && out[k].0 == n;
    }
  }

  // ---------------------------------------------------------------------------
  // show_by_type
  // ---------------------------------------------------------------------------

  /** The numbered records `show_by_type` prints, in record order: exactly
      those whose `type` equals the filter. An empty result is the soft
      "nothing found" case, which still exits with 0. */
  function ShowByType(records: seq<Json>, filter: string): (hits: seq<(nat, Json)>)
    ensures forall k :: 0 <= k < |hits| ==>
      1 <= hits[k].0 <= |records| && hits[k].1 == records[hits[k].0 - 1] && FieldIs(hits[k].1, "type", filter)
    ensures forall k, m :: 0 <= k < m < |hits| ==> hits[k].0 < hits[m].0
    ensures forall n :: 1 <= n <= |records| && FieldIs(records[n - 1], "type", filter) ==> n in NumbersOf(hits)
  {
    var f := (r: Json) => if FieldIs(r, "type", filter) then Some(r) else None;
    NumberedSound(records, f);
    NumberedIncreasing(records, f);
    NumberedComplete(records, f);
    Numbered(records, f)
  }

  /** Every record `show_by_type` prints is the one `show_line` shows for its number. */
  lemma ShowByTypeAgreesWithShowLine(records: seq<Json>, filter: string, k: nat)
    requires k < |ShowByType(records, filter)|
    ensures var (n, r) := ShowByType(records, filter)[k]; ShowLine(records, n) == Line(r)
  {
  }

  // ---------------------------------------------------------------------------
  // show_keys
  // ---------------------------------------------------------------------------

  /** Walks `parts` through nested objects: a missing key, or anything that
      is not an object where a key is sought, makes the value absent. */
  function Resolve(v: Json, parts: seq<string>): Option<Json>
    decreases |parts|
  {
    if |parts| == 0 then Some(v)
    else
      match Get(v, parts[0])
      case Some(x) => Resolve(x, parts[1..])
      case None => None
  }

  /** Walking a path in two legs is walking it in one. */
  lemma {:induction false} ResolveAppend(v: Json, p: seq<string>, q: seq<string>)
    ensures Resolve(v, p + q) == match Resolve(v, p) case Some(x) => Resolve(x, q) case None => None
    decreases |p|
  {
    if |p| == 0 {
      assert p + q == q;
    } else {
      assert (p + q)[0] == p[0];
      assert (p + q)[1..] == p[1..] + q;
      match Get(v, p[0])
      case Some(x) =>
        ResolveAppend(x, p[1..], q);
        assert Resolve(v, p + q) == Resolve(x, p[1..] + q);
        assert Resolve(v, p) == Resolve(x, p[1..]);
      case None =>
        assert Resolve(v, p + q) == None;
    }
  }

  /** Once the walk reaches a value that is not an object, any further key makes the result absent. */
  lemma NonObjectMidwayIsAbsent(v: Json, p: seq<string>, key: string, rest: seq<string>)
    requires Resolve(v, p).Some? && !Resolve(v, p).value.JObject?
    ensures Resolve(v, p + [key] + rest) == None
  {
    ResolveAppend(v, p, [key] + rest);
    assert p + [key] + rest == p + ([key] + rest);
  }

  /** The value `show_keys` extracts for one (possibly dotted) key; JSON
      `null` counts as absent. */
  function Project(r: Json, key: string): Option<Json> {
    match Resolve(r, Text.Split(key, '.'))
    case Some(JNull) => None
    case other => other
  }

  /** A dotted key written from dot-free segments walks exactly those segments. */
  lemma ProjectDottedPath(r: Json, parts: seq<string>)
    requires |parts| >= 1 && forall i :: 0 <= i < |parts| ==> '.' !in parts[i]
    ensures Project(r, Text.Join(parts, '.')) ==
      match Resolve(r, parts) case Some(JNull) => None case other => other
  {
    Text.SplitJoin(parts, '.');
  }

  lemma JoinThree(a: string, b: string, c: string)
    ensures Text.Join([a, b, c], '.') == a + "." + b + "." + c
  {
    assert [a, b, c][1..] == [b, c];
    assert [b, c][1..] == [c];
    assert Text.Join([b, c], '.') == b + "." + c;
  }

  /** `a.b.c` yields the nested value when `a` and `b` hold objects and `c`
      holds a value other than `null`. */
  lemma ProjectNested(r: Json, a: string, b: string, c: string, x: Json, y: Json, z: Json)
    requires '.' !in a && '.' !in b && '.' !in c
    requires Get(r, a) == Some(x) && Get(x, b) == Some(y) && Get(y, c) == Some(z) && z != JNull
    ensures Project(r, a + "." + b + "." + c) == Some(z)
  {
    JoinThree(a, b, c);
    ProjectDottedPath(r, [a, b, c]);
    assert [a, b, c][1..] == [b, c] && [b, c][1..] == [c] && [c][1..] == [];
    assert Resolve(r, [a, b, c]) == Resolve(x, [b, c]) == Resolve(y, [c]) == Resolve(z, []);
  }

  /** If `a.b` holds anything other than an object, `a.b.c` is absent. */
  lemma ProjectThroughNonObject(r: Json, a: string, b: string, c: string, x: Json, y: Json)
    requires '.' !in a && '.' !in b && '.' !in c
    requires Get(r, a) == Some(x) && Get(x, b) == Some(y) && !y.JObject?
    ensures Project(r, a + "." + b + "." + c) == None
  {
    JoinThree(a, b, c);
    ProjectDottedPath(r, [a, b, c]);
    assert [a, b, c][1..] == [b, c] && [b, c][1..] == [c];
    assert Resolve(r, [a, b, c]) == Resolve(x, [b, c]) == Resolve(y, [c]) == None;
  }

  function EntryKeys(e: seq<(string, Json)>): set<string> {
    set i | 0 <= i < |e| :: e[i].0
  }

  /** The position at which `k` is first requested. */
  function FirstIndex(keys: seq<string>, k: string): (i: nat)
    requires k in keys
    ensures i < |keys| && keys[i] == k
    ensures forall j :: 0 <= j < i ==> keys[j] != k
    decreases |keys|
  {
    if keys[0] == k then 0
    else
      assert k in keys[1..] by {
        var p :| 0 <= p < |keys| && keys[p] == k;
        assert keys[1..][p - 1] == k;
      }
      1 + FirstIndex(keys[1..], k)
  }

  /** Any first occurrence is the one `FirstIndex` finds. */
  lemma FirstIndexUnique(keys: seq<string>, k: string, i: nat)
    requires i < |keys| && keys[i] == k
    requires forall j :: 0 <= j < i ==> keys[j] != k
    ensures FirstIndex(keys, k) == i
  {
    var f := FirstIndex(keys, k);
    assert keys[f] == k && keys[i] == k;
  }

  /** Requesting one more key leaves the first positions of the earlier keys
      alone, and a key not requested before is first requested last. */
  lemma FirstIndexSnoc(init: seq<string>, k: string)
    ensures forall x :: x in init ==> FirstIndex(init + [k], x) == FirstIndex(init, x)
    ensures k !in init ==> FirstIndex(init + [k], k) == |init|
  {
    var keys := init + [k];
    forall x | x in init ensures FirstIndex(keys, x) == FirstIndex(init, x) {
      var f := FirstIndex(init, x);
      assert forall j :: 0 <= j <= f ==> keys[j] == init[j];
      FirstIndexUnique(keys, x, f);
    }
    if k !in init {
      assert forall j :: 0 <= j < |init| ==> keys[j] == init[j];
      FirstIndexUnique(keys, k, |init|);
    }
  }

  /** Adding a key requested for the first time after the earlier ones keeps
      the pairs in the order first requested. */
  lemma RequestOrderSnoc(init: seq<string>, k: string, prev: seq<(string, Json)>, e: seq<(string, Json)>)
    requires forall i :: 0 <= i < |prev| ==> prev[i].0 in init
    requires forall i, j :: 0 <= i < j < |prev| ==> FirstIndex(init, prev[i].0) < FirstIndex(init, prev[j].0)
    requires e == prev || (k !in init && exists v :: e == prev + [(k, v)])
    ensures forall i :: 0 <= i < |e| ==> e[i].0 in init + [k]
    ensures forall i, j :: 0 <= i < j < |e| ==> FirstIndex(init + [k], e[i].0) < FirstIndex(init + [k], e[j].0)
  {
    var keys := init + [k];
    FirstIndexSnoc(init, k);
    assert forall i :: 0 <= i < |prev| ==> e[i] == prev[i];
    if e != prev {
      assert e[|prev|].0 == k;
    }
  }

  /** The `extracted` dict of one record: each requested key that resolves,
      in the order first requested; a repeated key keeps its first place. */
  function Extracted(r: Json, keys: seq<string>): (e: seq<(string, Json)>)
    ensures forall i :: 0 <= i < |e| ==> e[i].0 in keys && Project(r, e[i].0) == Some(e[i].1)
    ensures forall k :: k in keys && Project(r, k).Some? ==> k in EntryKeys(e)
    ensures forall i, j :: 0 <= i < j < |e| ==> e[i].0 != e[j].0
    decreases |keys|
  {
    if |keys| == 0 then []
    else
      var init := keys[..|keys| - 1];
      var k := keys[|keys| - 1];
      var prev := Extracted(r, init);
      SplitLast(keys);
      match Project(r, k)
      case None => prev
      case Some(v) =>
        if k in EntryKeys(prev) then prev
        else
          var e := prev + [(k, v)];
          assert EntryKeys(e) == EntryKeys(prev) + {k} by {
            assert forall i :: 0 <= i < |prev| ==> e[i] == prev[i];
            assert e[|prev|].0 == k;
          }
          e
  }

  /** The pairs are in the order their keys were first requested, the order
      in which the dict receives them and `json.dumps` prints them. */
  lemma {:induction false} ExtractedInRequestOrder(r: Json, keys: seq<string>)
    ensures forall i :: 0 <= i < |Extracted(r, keys)| ==> Extracted(r, keys)[i].0 in keys
    ensures forall i, j :: 0 <= i < j < |Extracted(r, keys)| ==>
      FirstIndex(keys, Extracted(r, keys)[i].0) < FirstIndex(keys, Extracted(r, keys)[j].0)
    decreases |keys|
  {
    if |keys| > 0 {
      var init := keys[..|keys| - 1];
      var k := keys[|keys| - 1];
      var prev := Extracted(r, init);
      ExtractedInRequestOrder(r, init);
      ExtractedStep(r, keys);
      SplitLast(keys);
      RequestOrderSnoc(init, k, prev, Extracted(r, keys));
    }
  }

  /** One more requested key either leaves the pairs as they are or, when it
      resolves and was not requested before, appends its pair. */
  lemma ExtractedStep(r: Json, keys: seq<string>)
    requires |keys| > 0
    ensures var init := keys[..|keys| - 1]; var k := keys[|keys| - 1];
      Extracted(r, keys) == Extracted(r, init) ||
      (k !in init && exists v :: Extracted(r, keys) == Extracted(r, init) + [(k, v)])
  {
    var init := keys[..|keys| - 1];
    var k := keys[|keys| - 1];
    var prev := Extracted(r, init);
    if Project(r, k).Some? && k !in EntryKeys(prev) {
      assert Extracted(r, keys) == prev + [(k, Project(r, k).value)];
    }
  }

  /** The lines `show_keys` prints: each record with at least one resolved
      key, numbered from 1, with its extracted pairs, in record order. */
  function ShowKeys(records: seq<Json>, keys: seq<string>): (out: seq<(nat, seq<(string, Json)>)>)
    ensures forall k :: 0 <= k < |out| ==>
      1 <= out[k].0 <= |records| && out[k].1 == Extracted(records[out[k].0 - 1], keys) && out[k].1 != []
    ensures forall k, m :: 0 <= k < m < |out| ==> out[k].0 < out[m].0
    ensures forall n :: 1 <= n <= |records| ==> (n in NumbersOf(out) <==> Extracted(records[n - 1], keys) != [])
  {
    var f := (r: Json) => var e := Extracted(r, keys); if e != [] then Some(e) else None;
    NumberedSound(records, f);
    NumberedIncreasing(records, f);
    NumberedExact(records, f);
    Numbered(records, f)
  }

  /** A record gets a `show_keys` line exactly when one of the keys resolves
      to a value other than `null`. */
  lemma ShowKeysOmitsUnresolved(records: seq<Json>, keys: seq<string>, n: nat)
    requires 1 <= n <= |records|
    ensures n in NumbersOf(ShowKeys(records, keys)) <==> exists key :: key in keys && Project(records[n - 1], key).Some?
  {
    var out := ShowKeys(records, keys);
    var r := records[n - 1];
    assert n in NumbersOf(out) <==> Extracted(r, keys) != [];
    ExtractedNonEmpty(r, keys);
  }

  lemma ExtractedNonEmpty(r: Json, keys: seq<string>)
    ensures Extracted(r, keys) != [] <==> exists key :: key in keys && Project(r, key).Some?
  {
    var e := Extracted(r, keys);
    if e != [] {
      assert e[0].0 in keys && Project(r, e[0].0).Some?;
    }
    if exists key :: key in keys && Project(r, key).Some? {
      var key :| key in keys && Project(r, key).Some?;
      assert key in EntryKeys(e);
    }
  }

  // ---------------------------------------------------------------------------
  // print_json
  // ---------------------------------------------------------------------------

  const TruncatedNotice: string := "\n... (已截断)"

  /** Whether `print_json` truncates: `truncate` is given, non-zero, and
      smaller than the rendered length. */
  predicate Truncates(output: string, truncate: Option<int>) {
    truncate.Some? && truncate.value != 0 && |output| > truncate.value
  }

  /** The text `print_json` prints for the rendered `output`. A negative
      `truncate` slices from the end, as Python's `output[:n]` does. */
  function PrintJsonText(output: string, truncate: Option<int>): (r: string)
    ensures !Truncates(output, truncate) ==> r == output
    ensures Truncates(output, truncate) ==>
      exists kept :: kept <= output && (|output| > 0 ==> |kept| < |output|) && r == kept + TruncatedNotice
    ensures Truncates(output, truncate) && truncate.value > 0 ==>
      r == output[..truncate.value] + TruncatedNotice
  {
    if Truncates(output, truncate) then
      var kept := Text.PyPrefix(output, truncate.value);
      kept + TruncatedNotice
    else output
  }
}
